=== FILE: README.md ===
# Arrows Away — a Dafny model of the game simulation core

Arrows Away is a single-screen arcade shooter written in Go on the ebiten engine. An archer fires arrows at waves of goblins and skeletons that close in from the screen edges. This project models its simulation core as pure functions over immutable datatypes and proves properties of that model:

- the sprite geometry (`sprites/sprite.go`);
- the arrow (`sprites/arrow.go`);
- the enemy state machine Alive → Dead → Buried (`sprites/enemy.go`);
- the hero (`sprites/hero.go`);
- the level and wave population (`level/level.go`);
- the top-level controller with its `gameState` switch (`main.go`).

One Dafny module stands for each Go file:

| module | file | models |
|---|---|---|
| `GoInt` | `goint.dfy` | Go's truncating integer `/` and `%`, and float-to-int truncation |
| `Rects` | `rects.dfy` | Go's `image.Rectangle` and its `Intersect` |
| `Sprites` | `sprites.dfy` | `sprites/sprite.go` |
| `Arrows` | `arrows.dfy` | `sprites/arrow.go` |
| `Enemies` | `enemies.dfy` | `sprites/enemy.go` |
| `Heroes` | `heroes.dfy` | `sprites/hero.go` |
| `Levels` | `levels.dfy` | `level/level.go` |
| `Ids` | `ids.dfy` | fresh identifiers (uuid) and Go map iteration orders |
| `ArrowsAway` | `game.dfy` | `main.go` |

## How the environment becomes explicit

Everything the Go code reads from its environment becomes a parameter:

- **Input devices.** Each connected device is a `Pad`. It carries:
  - the left-stick step, already rounded and scaled to integers;
  - the right stick, either at rest or deflected toward a target point;
  - whether any button is pressed.
- **Time.** `time.Now()` becomes the `now` (seconds) and `nowMilli` (milliseconds) fields of each tick's `Input`.
- **The enemy coin flip.** `rand.Intn(2)` becomes `pursuers`, the set of enemies whose coin came up.
- **Identifiers.** `uuid.New()` becomes a game-wide counter `nextId`. `Consistent` states that every key in use is below it.
- **Enemy scale.** `getScale` is a float formula; it becomes the `Scaler` function argument.
- **Arrow line equation.** The float line-equation value of an arrow's non-dominant coordinate becomes `Input.lineCoord`.
- **Map iteration order.** Go's iteration order over the enemy and arrow maps comes from `Input`. `Ids.IterationOrder` takes the supplied order when it enumerates the keys and ascending order otherwise. Every property of `HitEnemy` holds for any enumeration.
- **Panics.** Indexing `levels` out of range panics in Go. Here it is the `Tick.IndexOutOfRange` outcome.

## As written vs corrected (`Rules`)

The controller takes a `Rules` argument:

- **`AsWritten`** follows the Go code.
- **`Corrected`** repairs the defects listed under "## Findings":
  - A restart resets every level, not only the first.
  - Reconnecting a device after a win or a loss returns to that end screen instead of resuming play.
  - A shot starts the 250 ms cooldown.

## Intended behaviour the code does not deliver

The model follows the code in each case:

- **Shot cooldown.**
  - The game is meant to wait 250 ms between shots (`milliBetweenShots`, `main.go:25-27`).
  - The code keeps one game-wide `lastShotMilli` and never sets it to anything but 0 (`main.go:127-135`, `main.go:330`). So the cooldown never applies, and a held stick fires on every tick.
  - `ArrowsAway.HeldStickFiresEveryTick` proves this.
- **Restart.**
  - Acknowledging GameOver or Winner is meant to start a fresh game.
  - The code resets only `levels[0]` (`main.go:221-223`).
- **Vertical arrows.**
  - An arrow fired straight up or down has no horizontal travel.
  - In the code, the only division by the x delta is the float slope (`sprites/arrow.go:52`), so there is no panic. With a zero x delta the slope is infinite, and so is the intercept, since the hero's x is positive (`sprites/arrow.go:69`).
  - The x increment is then 0, so each tick takes the vertical branch (`sprites/arrow.go:41-43`), which computes x as an infinity divided by an infinity. Go's conversion of that NaN to `int` is implementation-dependent, so a vertical arrow's x is meaningless after its first tick.
  - The model has no division by a delta. The arrow's non-dominant coordinate is the `lineCoord` input, so this garbage x is one of the values the model allows but does not single out.

Two places in the Go tree do not compile as they stand:

- `main.go:131` calls `NewArrow` with five arguments, while `sprites/arrow.go:49` takes four.
- `sprites/enemy.go:177` reads `arrow.X`, while an arrow keeps its position in its `Sprite`.

The model uses the arrow's `Sprite` position. Its constructor takes the start and end points, as four coordinates, and the image, which is what the fifth argument at `main.go:131` supplies. It also takes the facing angle as an argument, in place of the `atan2` computation at `sprites/arrow.go:78`, which no caller passes.

## Model

| member | source | states |
|---|---|---|
| GoInt.Quot | sprites/hero.go:22-32 | Go integer division truncates toward zero: for a negative dividend it is minus the quotient of the magnitudes |
| GoInt.Rem | sprites/enemy.go:99 | Go's remainder: quotient times divisor plus remainder gives back the dividend, the remainder takes the sign of the dividend and is smaller in magnitude than the divisor, so `-3 % 2` is -1 |
| GoInt.Trunc | sprites/enemy.go:145-146 | a float-to-int conversion lands within one of its argument, toward zero |
| Rects.Intersect | main.go:106-109 | the intersection covers exactly the pixels both rectangles cover, and is the zero rectangle whenever it would be empty |
| Rects.OverlapsIffSharedPixel | sprites/sprite.go:86-88 | comparing the intersection with the zero rectangle holds exactly when the boxes share a pixel, so it is symmetric |
| Sprites.NewSprite | sprites/sprite.go:17-27 | a new sprite sits at the origin, unrotated and unscaled, and keeps the given width and image; its box is symmetric about the origin |
| Sprites.Scale | sprites/sprite.go:29-32 | both scale factors take the given value and nothing else changes |
| Sprites.Bounds | sprites/sprite.go:58-69 | the box is centred on the sprite and is at most one pixel narrower than the image on each axis |
| Sprites.Center | sprites/sprite.go:90-93 | the sprite lands on the half-screen point (rounded down), with everything but its position kept |
| Sprites.CenterForgetsPosition | sprites/sprite.go:90-93 | centring does not depend on the former position and is idempotent |
| Arrows.Increment | sprites/arrow.go:53-64 | the per-tick step has the sign of the delta, and fifty steps cover the delta to within fifty pixels |
| Arrows.NewArrow | sprites/arrow.go:49-80 | an arrow starts at the launch point with the launch-to-target increments on both axes and a default sprite |
| Arrows.IsOffScreen | sprites/arrow.go:23-33 | an arrow is off screen exactly when its position is outside the closed box from the origin to the screen size |
| Arrows.Update | sprites/arrow.go:35-43 | a tick moves the arrow along x by its x step when that step is non-zero, else along y by its y step, and changes nothing but its position |
| Arrows.FlightAlongDominantAxis | sprites/arrow.go:35-43 | after n ticks the dominant coordinate has moved by exactly n steps and the increments are unchanged |
| Arrows.ArrowReachesTargetColumn | sprites/arrow.go:49-64 | when the arrow travels at least fifty pixels horizontally, after fifty ticks it is within fifty pixels of the target column without passing it |
| Enemies.SetState | sprites/enemy.go:50-53 | entering a state records it and stamps the entry time; nothing else changes |
| Enemies.MoveTowardHero | sprites/enemy.go:55-70 | the distance to the hero shrinks by exactly one on each axis where they differ and stays zero where they agree |
| Enemies.MoveAwayFromHero | sprites/enemy.go:72-87 | the distance to the hero grows by exactly one on each axis where they differ and stays zero where they agree |
| Enemies.AwayUndoesToward | sprites/enemy.go:55-87 | stepping away undoes a step toward the hero unless the step toward would have closed a one-pixel gap |
| Enemies.Move | sprites/enemy.go:89-93 | the enemy steps toward the hero exactly when its coin comes up and otherwise stays put |
| Enemies.Update | sprites/enemy.go:95-108 | Buried is left alone; Alive moves and animates; Dead becomes Buried exactly when more than two seconds have passed, else shows the decay frame; health holds and the state never goes back |
| Enemies.Bounds | sprites/enemy.go:138-149 | the enemy box starts at its position and is never inverted for a non-negative scale |
| Enemies.BoundsSize | sprites/enemy.go:145-146 | the box is the image size times the scale, truncated |
| Enemies.Shot | sprites/enemy.go:151-158 | a shot removes exactly one hitpoint; at zero the enemy is Dead, otherwise it backs away from the hero; a healthy Alive enemy stays healthy |
| Enemies.ToStart | sprites/enemy.go:168-171 | the enemy returns to its start position with everything else kept |
| Enemies.IsHit | sprites/enemy.go:173-186 | a hit means the arrow lies in the closed box; a hit while alive means a hit on an Alive enemy, which is then shot; otherwise the enemy is unchanged; Buried stays Buried |
| Enemies.NewEnemy | sprites/enemy.go:188-207 | a new enemy is Alive at full health with its start position equal to its position, placed at or above-left of the requested centre |
| Enemies.SpawnIsStart | sprites/enemy.go:188-207 | returning a freshly spawned enemy to its start changes nothing |
| Enemies.LifecycleInvariant | sprites/enemy.go:95-186 | over any sequence of updates, hits and rewinds, a healthy enemy stays healthy, never regains hitpoints, keeps its total and never moves back in its lifecycle |
| Enemies.BuriedIsFinal | sprites/enemy.go:95-108 | without a rewind, no sequence of updates or hits changes a Buried enemy |
| Heroes.Clamp | sprites/hero.go:23-27 | the clamped value lies in the range and equals the input when the input already does |
| Heroes.Step | sprites/hero.go:22-33 | one device's step leaves the hero inside the clamp range, and moves it by exactly the step when that stays in range |
| Heroes.Update | sprites/hero.go:16-35 | with no device the hero does not move; with at least one it ends inside the clamp range |
| Heroes.RestingSticksKeepPosition | sprites/hero.go:16-35 | a hero inside the range with every stick at rest does not move |
| Heroes.FreeStepsAdd | sprites/hero.go:16-35 | when no device's step pushes the hero past the clamp, the hero moves by exactly the sum of the devices' steps on each axis |
| Heroes.Bounds | sprites/hero.go:45-56 | the hero box starts at the hero, is 32 pixels wide and as tall as the image |
| Heroes.Center | sprites/hero.go:58-61 | the hero's position plus half its size is the half-screen point, with truncating division |
| Heroes.CenterIgnoresPosition | sprites/hero.go:58-61 | centring does not depend on the former position and is idempotent |
| Heroes.NewHero | sprites/hero.go:87-94 | the hero's width is a third of the image width and it starts centred |
| Levels.NewLevel | level/level.go:92-100 | a new level is at stage zero, not complete, and keeps its name, images and enemy count |
| Levels.Complete | level/level.go:37-39 | a level is complete exactly when its stage equals the stage count, 1; a new level is not complete (`Levels.NewLevel`), and from a reset it becomes complete after exactly one advance (`Levels.CompleteAfterExactlyNumStages`) |
| Levels.NextStage | level/level.go:41-43 | the stage goes up by exactly one and nothing else changes |
| Levels.Reset | level/level.go:45-47 | the stage returns to zero and nothing else changes |
| Levels.Advance | level/level.go:41-43 | n stage advances raise the stage by exactly n |
| Levels.CompleteAfterExactlyNumStages | level/level.go:37-47 | from a reset, a level is complete after exactly one stage advance, and after no other number |
| Levels.Hitpoints | level/level.go:49-62 | the i-th edge enemy has 50 times (1 + i mod tiers), where the tier count is 1, 2, 3 or 4 by stage; so it is 50 at stage 0 and between 50 and 200 always |
| Levels.SpawnCount | level/level.go:64-90 | one enemy once the stages are used up; otherwise the base count rounded down to a multiple of four, and none below four |
| Levels.EdgePoint | level/level.go:68-88 | the n-th edge point lies on the left, top, right or bottom edge for the 1st to 4th block of `per` indices, at the edge's fixed coordinate, and (n mod per) spacings of size/per along it, within the screen |
| Levels.EvenlySpaced | level/level.go:69-70 | the i-th of `per` points spaced size/per apart stays on an edge of length `size`, at least one spacing short of its end |
| Levels.EdgeEnemy | level/level.go:68-88 | each edge enemy is a healthy Alive non-boss whose hitpoints follow its index along the edge, starting where it spawned, at or above-left of its edge point |
| Levels.EdgeWave | level/level.go:68-88 | an edge wave gives the consecutive fresh identifiers from `nextId` to the edge enemies in spawn order, so each block of `per` identifiers lands on one edge, in the order left, top, right, bottom |
| Levels.Spawned | level/level.go:64-90 | the spawned enemies take exactly the next identifiers; the boss stage spawns 1000-hitpoint bosses, other stages healthy Alive non-bosses in the tier range |
| Levels.EdgeWaveEnemies | level/level.go:68-88 | every enemy of an edge wave is a healthy Alive non-boss in the tier range |
| Levels.PopulateEnemies | level/level.go:64-90 | population only inserts under fresh identifiers: existing enemies are untouched, the map grows by the spawn count and identifiers stay fresh |
| Levels.BossStage | level/level.go:65-66 | a complete level spawns exactly one enemy, a boss with 1000 hitpoints |
| Levels.FortyAtStageZero | level/level.go:49-90 | forty enemies at stage zero give forty non-boss enemies of 50 hitpoints |
| Ids.IterationOrder | main.go:138-144 | the order used to walk a map visits each key exactly once, and is the host's order whenever that is a valid enumeration |
| ArrowsAway.CollisionMeansSharedPixel | main.go:106-109 | the hero is struck exactly when an Alive enemy's box and the hero's box share a pixel |
| ArrowsAway.AnyPressed | main.go:78-90 | walking the devices and never lowering the flag once raised reports exactly whether some connected device has a button down |
| ArrowsAway.UpdateHero | main.go:105-120 | lives drop by exactly one when some Alive enemy overlaps the hero and are unchanged otherwise; a hit leads to GameOver at zero lives and LostLife otherwise |
| ArrowsAway.FireOne | main.go:123-136 | a device fires at most one arrow, only with its stick deflected, from the hero's position toward the hero plus the stick's reach, with the increments `NewArrow` derives from that aim, under a fresh identifier; as written it fires whenever its stick is deflected and never records a shot time |
| ArrowsAway.Fire | main.go:123-136 | firing only adds arrows under consecutive fresh identifiers, keeps existing arrows, and as written fires once per deflected stick |
| ArrowsAway.FireLaunchesFromHero | main.go:128-131 | every arrow fired in a tick starts at the hero's position |
| ArrowsAway.CooldownHoldsFire | main.go:127 | while a recorded shot time is less than 250 ms old, no arrow is fired |
| ArrowsAway.HeldStickFiresEveryTick | main.go:126-135 | as written, a stick held over two ticks fires on both |
| ArrowsAway.CooldownSpacesShots | main.go:126-135 | corrected, a shot records its time, and a second shot follows exactly when 250 ms have passed |
| ArrowsAway.Fired | main.go:123-136 | firing changes only the arrows, the identifier counter and the shot time; the arrows after are those before plus the consecutive identifiers handed out, identifiers stay fresh, and every existing arrow is kept unchanged |
| ArrowsAway.HitEnemy | main.go:92-103 | the walk over the enemies applies each one's hit test once and leaves the enemies it does not visit unchanged |
| ArrowsAway.HitEnemyReportsLastEnemy | main.go:95-102 | the reported hit is the hit flag of the last enemy walked, not whether any enemy was hit |
| ArrowsAway.HitEnemyScoresPerAliveHit | main.go:96-99 | the score gained is ten for each enemy hit while alive |
| ArrowsAway.WalkKeepsLifecycle | main.go:95-100 | an arrow's walk keeps every enemy's health, never moves a state back, and neither buries nor unburies anyone |
| ArrowsAway.ResolveArrow | main.go:138-144 | resolving an arrow removes at most that arrow, always removes it when off screen, and keeps the enemy identifiers |
| ArrowsAway.ResolveArrowScore | main.go:138-144 | resolving an arrow adds ten points per enemy hit while alive, so the score never falls and stays a multiple of ten from where it was |
| ArrowsAway.ResolveArrowLifecycle | main.go:138-144 | resolving an arrow keeps every enemy's health and lifecycle order |
| ArrowsAway.ResolveArrowRemoval | main.go:138-143 | an arrow is removed exactly when it is off screen or the last enemy of its walk reports a hit, so a strike on an earlier enemy alone leaves it flying |
| ArrowsAway.ResolveArrowOnEmptyField | main.go:138-143 | with no enemy on the field an arrow stays exactly when it is on screen, and the field stays empty |
| ArrowsAway.ResolveArrows | main.go:138-144 | after the pass, no surviving visited arrow is off screen, unvisited arrows remain, survivors are unchanged, and scores and enemy lifecycles are kept; on an empty field every on-screen arrow survives |
| ArrowsAway.Resolved | main.go:138-144 | the arrow pass changes only enemies, arrows and score; no remaining arrow is off screen, and on an empty field every on-screen arrow remains |
| ArrowsAway.AdvanceArrows | main.go:146-148 | every remaining arrow advances one step along its dominant axis and nothing else about it changes |
| ArrowsAway.UpdateEnemies | main.go:151-161 | exactly the Buried enemies are removed; a Dead enemy keeps its position and is buried, stamped with the current time, exactly when more than two seconds have passed; an Alive enemy stays Alive, keeps its state time, animates by the parity of its age, and steps toward the hero when its coin came up and otherwise stays put; hit points, start point, image and boss flag never change, so no enemy is healed or moved back |
| ArrowsAway.Moved | main.go:181 | moving the hero changes only the hero's position; with no device it stays put, and after any device's step it lies within the clamp range on each axis |
| ArrowsAway.Combat | main.go:180-184 | a Running tick costs exactly one life on a collision (GameOver at zero, LostLife otherwise), never lowers the score or the identifier counter, never adds enemies and keeps the game consistent |
| ArrowsAway.StruckHeroKeepsItsAttacker | main.go:182-185 | a tick in which the hero is struck never leaves the field empty, so the wave-clear branch cannot overwrite LostLife or GameOver in that tick |
| ArrowsAway.NextLevel | main.go:187-194 | after a completed level the index moves on; past the last level the game is won with the field kept, otherwise the next level populates and play waits at NextStage |
| ArrowsAway.NextWave | main.go:195-199 | an incomplete level advances one stage and repopulates, and play waits at NextStage on the same level |
| ArrowsAway.WaveCleared | main.go:185-200 | a cleared field panics exactly when the level index is out of range, and otherwise goes to the next level or the next wave, keeping lives and score |
| ArrowsAway.RunningTick | main.go:180-200 | a Running tick panics exactly when combat clears the field while the level index is out of range; otherwise it keeps the level count and screen size and keeps consistency |
| ArrowsAway.Retry | main.go:201-211 | after a lost life exactly the Alive enemies remain, each back at its start position, the hero is centred and play resumes |
| ArrowsAway.ResetAll | level/level.go:45-47 | every level is reset to stage zero and nothing else about it changes |
| ArrowsAway.RestartLevels | main.go:221-222 | as written only the first level is reset and the others are kept; corrected, every level is reset |
| ArrowsAway.Restarted | main.go:215-223 | acknowledging GameOver or Winner restarts at the first level with score 0, 3 lives, the hero centred and a fresh population of that level |
| ArrowsAway.Restart | main.go:212-224 | a restart panics exactly when there are no levels |
| ArrowsAway.Reconnect | main.go:171-174 | as written, a reconnected device always leads to NextStage; corrected, only a game still in play does, a won game returns to Winner and a game with no lives left returns to GameOver |
| ArrowsAway.UpdateWith | main.go:163-227 | with no device the state becomes NoClicker; every tick keeps the level count, the screen size and consistency |
| ArrowsAway.Initialize | main.go:328-340 | the game starts at NextStage on a 1000×1000 screen with 3 lives, score 0, no arrows, two forty-enemy levels at stage 0 and forty 50-hitpoint enemies |
| ArrowsAway.DeviceBringsUpStage | main.go:171-174 | NoClicker moves to NextStage once a device is connected, and nothing else changes |
| ArrowsAway.PressStartsStage | main.go:175-179 | NextStage moves to Running with the hero centred exactly when a button is pressed, and is otherwise unchanged |
| ArrowsAway.LivesAreCountedOnce | main.go:180-200 | a Running tick loses exactly one life on a collision and none otherwise, ending at GameOver on the last life and LostLife before it |
| ArrowsAway.EmptyFieldTick | main.go:180-186 | when combat clears the field, the tick is the wave check on the post-combat game |
| ArrowsAway.ClearedWaveNextStage | main.go:195-199 | clearing an incomplete level's field advances its stage, repopulates it and waits at NextStage without changing the level index |
| ArrowsAway.ClearedBossNextLevel | main.go:187-194 | clearing a complete level's field moves to the next level; past the last level the game is won on an empty field |
| ArrowsAway.BossFieldTick | main.go:185-188 | clearing a complete level's field is the next-level step on the post-combat game |
| ArrowsAway.NextLevelFromEmptyField | main.go:187-194 | from an empty field, the next-level step wins past the last level and otherwise spawns the next level's wave |
| ArrowsAway.PressRetries | main.go:201-211 | in LostLife a button press is exactly the retry step |
| ArrowsAway.PressRestarts | main.go:212-224 | in GameOver or Winner a button press is exactly the restart step |
| ArrowsAway.CorrectedTickIsSound | main.go:163-227 | under the corrected rules a tick never panics and keeps the level index in range for play with lives remaining |
| ArrowsAway.PlayIsSound | main.go:180-200 | under the corrected rules a Running tick never panics and keeps soundness |
| ArrowsAway.CorrectedRunNeverPanics | main.go:163-227 | under the corrected rules no sequence of ticks from a sound game ever indexes past the levels |
| ArrowsAway.InitialGameIsSound | main.go:328-340 | the initial game is sound |
| ArrowsAway.RunKeepsConsistency | main.go:163-227 | over any sequence of ticks, identifiers stay fresh and every enemy stays healthy |
| ArrowsAway.ReplugAfterWinPanics | main.go:166-190 | as written, after a win, unplugging and replugging leaves NextStage with the level index past the end (the program's drawing then panics at main.go:282, which is outside this model); on the update path alone, pressing a button resumes play and the next tick panics |
| ArrowsAway.ReplugAfterGameOverRevives | main.go:166-182 | as written, after a game over, unplugging, replugging and pressing a button resumes play with zero lives, and a collision then takes lives to -1 |
| ArrowsAway.RestartKeepsLaterStages | main.go:221-223 | as written, a restart keeps every later level at the stage it reached, so a finished level offers only its boss |
| ArrowsAway.RestartResetsEveryLevel | main.go:221-223 | corrected, a restart puts every level back at its first stage |

## Left out

- Drawing is not modelled: `Draw`, `tileFloor`, `drawCentered`, the sprites' `Draw` and `DrawSubImage`, the hero's `Winner` and `GameOver` pictures, the health bar, and the text and font set-up. These are rendering calls into the ebiten library.
- Image decoding and the global image cache (`images/images.go`) are not modelled. They are I/O. An image is only its width and height here.
- Device plumbing is not modelled: `updateGamepads`, the button loop of `isPadButtonPressed`, and the stick reads with their float rounding. They become `Pad` values whose steps are already integers.
- `getScale` is left out because it is float arithmetic. It becomes the `Scaler` argument, and `ScaledBounds` and `Sprite.Intersect` over scaled boxes are left out with it.
- Arrows.Update: the non-dominant coordinate comes from the float line equation. It is an input (`lineCoord`), so only the dominant coordinate's motion is proved.
- Arrows.NewArrow: the slope, intercept and `atan2` facing angle are floats. The facing angle is an argument, and the slope and intercept are not stored.
- `time.Now`, `rand.Intn` and `uuid.New` become inputs, as described above. Uuid collisions are not modelled: identifiers come from a counter.
- ArrowsAway.ResolveArrows: that an on-screen arrow survives the pass is stated only for an empty field. With enemies present, survival depends on the enemies as the earlier arrows of the pass left them. For one arrow it is stated exactly by `ArrowsAway.ResolveArrowRemoval`.
- ArrowsAway.Resolved: for the same reason as `ArrowsAway.ResolveArrows`, survival of an on-screen arrow through the whole pass is stated only for an empty field.
- ArrowsAway.HitEnemy: Go's map iteration order is unspecified. The model takes it as an input, so the "last enemy walked" that decides the hit flag is whatever order the host supplies.
- `Layout` (window resizing) and `main` are left out. The screen size stays at the 1000×1000 set in `initialize`.
- ArrowsAway.Combat: `score` is a Go `int64` and the model's integer is unbounded. Overflow after some 9×10^17 hits is not modelled.

## Findings

| source | as written | input that shows it | evidently intended | confidence | as-written member | corrected member |
|---|---|---|---|---|---|---|
| main.go:221-223 | acknowledging GameOver or Winner resets only `levels[0]`; later levels keep their stage | finish both levels, win, press a button, clear the first level: the second level spawns only its boss | a full reset puts every level back at stage 0 | not executed | ArrowsAway.RestartKeepsLaterStages | ArrowsAway.RestartResetsEveryLevel |
| main.go:166-174, main.go:186, main.go:281-282 | reconnecting a device always goes to NextStage, even from Winner, where `levelIndex == len(levels)` | win, unplug every device, plug one in: the next frame draws the NextStage screen, reads `levels[2]` (main.go:282) and panics; the update path alone panics one press later, on the first Running tick, which finds the field empty and reads `levels[2]` (main.go:186) | reconnecting returns a won game to its Winner screen | not executed | ArrowsAway.ReplugAfterWinPanics | ArrowsAway.CorrectedRunNeverPanics |
| main.go:166-174, main.go:110-115 | reconnecting a device also revives a GameOver with 0 lives; the next collision takes lives to -1 and shows LostLife | lose the last life, unplug, plug in, press a button, walk into an enemy | reconnecting returns a lost game to its GameOver screen | not executed | ArrowsAway.ReplugAfterGameOverRevives | ArrowsAway.CorrectedTickIsSound |
| main.go:127-135 | `lastShotMilli` is never set after a shot, so the 250 ms cooldown never applies | hold the right stick over two ticks 16 ms apart: both ticks fire | a shot records its time and the next waits 250 ms | not executed | ArrowsAway.HeldStickFiresEveryTick | ArrowsAway.CooldownSpacesShots |

=== FILE: arrows.dfy ===
/** The projectile (`sprites/arrow.go`). An arrow flies from its launch point
    toward a target in a fixed number of ticks: each tick it advances by a
    whole-pixel increment along the axis whose increment is non-zero (x
    first), and the other coordinate is recomputed from the line through the
    two points. That recomputation is floating point; here it is supplied by
    the caller as `lineCoord`. */
module Arrows {
  import opened GoInt
  import opened Rects
  import opened Sprites

  /** The number of ticks an arrow takes to cover its launch-to-target distance. */
  const Animations := 50

  datatype Arrow = Arrow(endX: int, endY: int, xInc: int, yInc: int, sprite: Sprite)

  /** The per-tick step from `start` toward `end`: the whole number of pixels
      that covers the distance in `Animations` ticks, rounded toward zero, and
      pointing from `start` to `end`. */
  function Increment(start: int, end: int): (inc: int)
    ensures Animations * Abs(inc) <= Abs(end - start) < Animations * (Abs(inc) + 1)
    ensures 0 < inc ==> start < end
    ensures inc < 0 ==> end < start
  {
    if start < end then (end - start) / Animations
    else -1 * ((start - end) / Animations)
  }

  /** A new arrow at its launch point, with the increments toward its target.
      `radians` is the facing angle, a float the caller computes. */
  function NewArrow(startX: int, startY: int, endX: int, endY: int, image: Image, radians: real): (a: Arrow)
    ensures a.sprite.x == startX && a.sprite.y == startY
    ensures a.endX == endX && a.endY == endY
    ensures a.xInc == Increment(startX, endX) && a.yInc == Increment(startY, endY)
    ensures a.sprite == NewSprite(image.width, image).(x := startX, y := startY, radians := radians)
  {
    var sprite := NewSprite(image.width, image);
    Arrow(endX, endY, Increment(startX, endX), Increment(startY, endY),
          sprite.(x := startX, y := startY, radians := radians))
  }

  /** True when the arrow's position is outside the closed screen box. */
  function IsOffScreen(a: Arrow, width: int, height: int): (off: bool)
    ensures off <==> !InClosed(Rect(Point(0, 0), Point(width, height)), Point(a.sprite.x, a.sprite.y))
  {
    if a.sprite.x < 0 || a.sprite.x > width then true
    else if a.sprite.y < 0 || a.sprite.y > height then true
    else false
  }

  /** One tick of flight: the dominant axis advances by its increment, the
      other coordinate becomes `lineCoord`; nothing else changes. */
  function Update(a: Arrow, lineCoord: int): (r: Arrow)
    ensures a.xInc != 0 ==> r.sprite.x == a.sprite.x + a.xInc
    ensures a.xInc == 0 ==> r.sprite.y == a.sprite.y + a.yInc
    ensures r == a.(sprite := a.sprite.(x := r.sprite.x, y := r.sprite.y))
  {
    if a.xInc != 0 then
      a.(sprite := a.sprite.(x := a.sprite.x + a.xInc, y := lineCoord))
    else
      a.(sprite := a.sprite.(y := a.sprite.y + a.yInc, x := lineCoord))
  }

  /** Successive ticks of flight, one recomputed coordinate per tick. */
  function Fly(a: Arrow, lineCoords: seq<int>): (r: Arrow)
    decreases |lineCoords|
  {
    if |lineCoords| == 0 then a else Fly(Update(a, lineCoords[0]), lineCoords[1..])
  }

  /** After `n` ticks the dominant coordinate has moved by exactly `n`
      increments, whatever the other coordinate did. */
  lemma {:induction false} FlightAlongDominantAxis(a: Arrow, lineCoords: seq<int>)
    ensures Fly(a, lineCoords).xInc == a.xInc && Fly(a, lineCoords).yInc == a.yInc
    ensures a.xInc != 0 ==> Fly(a, lineCoords).sprite.x == a.sprite.x + |lineCoords| * a.xInc
    ensures a.xInc == 0 ==> Fly(a, lineCoords).sprite.y == a.sprite.y + |lineCoords| * a.yInc
    decreases |lineCoords|
  {
    if |lineCoords| > 0 {
      var b := Update(a, lineCoords[0]);
      FlightAlongDominantAxis(b, lineCoords[1..]);
      assert |lineCoords| * a.xInc == a.xInc + |lineCoords[1..]| * a.xInc;
      assert |lineCoords| * a.yInc == a.yInc + |lineCoords[1..]| * a.yInc;
    }
  }

  /** An arrow whose target is at least one increment away horizontally ends
      its `Animations` ticks less than `Animations` pixels from the target
      column, on the launch side of it. */
  lemma ArrowReachesTargetColumn(startX: int, startY: int, endX: int, endY: int, image: Image,
                                 radians: real, lineCoords: seq<int>)
    requires Animations <= Abs(endX - startX)
    requires |lineCoords| == Animations
    ensures var x := Fly(NewArrow(startX, startY, endX, endY, image, radians), lineCoords).sprite.x;
            Abs(endX - x) < Animations && (startX < endX ==> x <= endX) && (endX < startX ==> endX <= x)
  {
    var a := NewArrow(startX, startY, endX, endY, image, radians);
    FlightAlongDominantAxis(a, lineCoords);
  }
}

=== FILE: enemies.dfy ===
/** The hostile (`sprites/enemy.go`): an Alive -> Dead -> Buried state machine
    with a hitpoint counter, one-pixel pursuit of and retreat from the hero,
    and a point hit test. The clock (`now`, Unix seconds), the coin flip that
    decides whether an enemy steps this tick, and the floating-point sprite
    scale are all supplied by the caller. */
module Enemies {
  import opened GoInt
  import opened Rects
  import opened Sprites
  import Arrows

  /** Width of one animation frame of every enemy image, in pixels. */
  const ImageWidth := 32

  /** Hitpoints of the weakest enemy; stronger ones have multiples of it. */
  const HitpointIncrement := 50

  /** Seconds a Dead enemy lies before it is Buried. */
  const DecaySeconds := 2

  /** The frame a Dead enemy shows while it decays. */
  const DecayFrame := 2

  datatype State = Alive | Dead | Buried

  datatype Enemy = Enemy(startX: int, startY: int, x: int, y: int, frame: int,
                         state: State, image: Image, stateTime: int,
                         hitpoints: int, totalHitpoints: int, boss: bool)

  /** The renderer's scale for an enemy (`getScale`, a float computed from
      its state, boss flag and hitpoints); an input to this model. */
  type Scaler = Enemy -> real

  /** The health invariant: hitpoints stay within `[0, totalHitpoints]`, and
      an Alive enemy has some left. */
  predicate Healthy(e: Enemy) {
    0 <= e.hitpoints <= e.totalHitpoints && (e.state == Alive ==> 0 < e.hitpoints)
  }

  /** The order in which states are entered; no operation lowers it. */
  function Rank(s: State): nat {
    match s
    case Alive => 0
    case Dead => 1
    case Buried => 2
  }

  /** Enters `s`, stamping the entry time. */
  function SetState(e: Enemy, s: State, now: int): (r: Enemy)
    ensures r.state == s && r.stateTime == now
    ensures r.(state := e.state, stateTime := e.stateTime) == e
  {
    e.(state := s, stateTime := now)
  }

  /** One pixel toward the hero on each axis where they differ. */
  function MoveTowardHero(e: Enemy, heroX: int, heroY: int): (r: Enemy)
    ensures Abs(r.x - heroX) == (if e.x == heroX then 0 else Abs(e.x - heroX) - 1)
    ensures Abs(r.y - heroY) == (if e.y == heroY then 0 else Abs(e.y - heroY) - 1)
    ensures Abs(r.x - e.x) <= 1 && Abs(r.y - e.y) <= 1
    ensures r == e.(x := r.x, y := r.y)
  {
    var x := if e.x < heroX then e.x + 1 else if e.x > heroX then e.x - 1 else e.x;
    var y := if e.y < heroY then e.y + 1 else if e.y > heroY then e.y - 1 else e.y;
    e.(x := x, y := y)
  }

  /** One pixel away from the hero on each axis where they differ. */
  function MoveAwayFromHero(e: Enemy, heroX: int, heroY: int): (r: Enemy)
    ensures Abs(r.x - heroX) == (if e.x == heroX then 0 else Abs(e.x - heroX) + 1)
    ensures Abs(r.y - heroY) == (if e.y == heroY then 0 else Abs(e.y - heroY) + 1)
    ensures Abs(r.x - e.x) <= 1 && Abs(r.y - e.y) <= 1
    ensures r == e.(x := r.x, y := r.y)
  {
    var x := if e.x < heroX then e.x - 1 else if e.x > heroX then e.x + 1 else e.x;
    var y := if e.y < heroY then e.y - 1 else if e.y > heroY then e.y + 1 else e.y;
    e.(x := x, y := y)
  }

  /** Retreat undoes pursuit: stepping toward the hero and then away returns
      to the start on every axis where the enemy was more than a pixel away. */
  lemma AwayUndoesToward(e: Enemy, heroX: int, heroY: int)
    requires Abs(e.x - heroX) != 1 && Abs(e.y - heroY) != 1
    ensures MoveAwayFromHero(MoveTowardHero(e, heroX, heroY), heroX, heroY) == e
  {
  }

  /** Stochastic pursuit: `coin` is the game's `rand.Intn(2) > 0`. */
  function Move(e: Enemy, coin: bool, heroX: int, heroY: int): (r: Enemy)
    ensures coin ==> r == MoveTowardHero(e, heroX, heroY)
    ensures !coin ==> r == e
  {
    if coin then MoveTowardHero(e, heroX, heroY) else e
  }

  /** One tick of an enemy's life at time `now`. */
  function Update(e: Enemy, now: int, coin: bool, heroX: int, heroY: int): (r: Enemy)
    ensures e.state == Buried ==> r == e
    ensures e.state == Alive ==> r == Move(e, coin, heroX, heroY).(frame := r.frame)
    ensures e.state == Alive && e.stateTime <= now ==> r.frame == (now - e.stateTime) % 2 && 0 <= r.frame <= 1
    ensures e.state == Dead ==> (r.state == Buried <==> now > e.stateTime + DecaySeconds)
    ensures e.state == Dead && r.state == Buried ==> r == SetState(e, Buried, now)
    ensures e.state == Dead && r.state != Buried ==> r == e.(frame := DecayFrame)
    ensures Healthy(e) ==> Healthy(r)
    ensures Rank(e.state) <= Rank(r.state)
  {
    match e.state
    case Alive =>
      Move(e, coin, heroX, heroY).(frame := Rem(now - e.stateTime, 2))
    case Dead =>
      if now > e.stateTime + DecaySeconds then SetState(e, Buried, now)
      else e.(frame := DecayFrame)
    case Buried => e
  }

  /** The enemy's box: its position as the top-left corner, and the frame
      width and image height scaled by `scale`, each truncated to whole pixels. */
  function Bounds(e: Enemy, scale: real): (b: Rect)
    ensures b.min == Point(e.x, e.y)
    ensures 0.0 <= scale ==> b.min.x <= b.max.x && b.min.y <= b.max.y
  {
    Rect(Point(e.x, e.y),
         Point(e.x + Trunc(ImageWidth as real * scale), e.y + Trunc(e.image.height as real * scale)))
  }

  /** The box is the scaled frame truncated to whole pixels: each side is
      the largest whole number not above the scaled size. */
  lemma BoundsSize(e: Enemy, scale: real)
    requires 0.0 <= scale
    ensures var b := Bounds(e, scale);
      && (b.max.x - b.min.x) as real <= ImageWidth as real * scale < (b.max.x - b.min.x + 1) as real
      && (b.max.y - b.min.y) as real <= e.image.height as real * scale < (b.max.y - b.min.y + 1) as real
  {
  }

  /** One arrow hit: a hitpoint is lost; at zero the enemy dies where it
      stands, otherwise it is pushed one pixel away from the hero. */
  function Shot(e: Enemy, heroX: int, heroY: int, now: int): (r: Enemy)
    ensures r.hitpoints == e.hitpoints - 1
    ensures r.hitpoints == 0 ==> r == SetState(e, Dead, now).(hitpoints := 0)
    ensures r.hitpoints != 0 ==> r == MoveAwayFromHero(e, heroX, heroY).(hitpoints := r.hitpoints)
    ensures e.state == Alive && Healthy(e) ==> Healthy(r)
  {
    var hit := e.(hitpoints := e.hitpoints - 1);
    if hit.hitpoints == 0 then SetState(hit, Dead, now)
    else MoveAwayFromHero(hit, heroX, heroY)
  }

  /** Back to the spawn point; nothing else changes. */
  function ToStart(e: Enemy): (r: Enemy)
    ensures r.x == e.startX && r.y == e.startY
    ensures r.(x := e.x, y := e.y) == e
  {
    e.(x := e.startX, y := e.startY)
  }

  /** The outcome of `IsHit`: whether the arrow struck an Alive enemy,
      whether it struck at all, and the enemy afterwards. */
  datatype Hit = Hit(whileAlive: bool, hit: bool, enemy: Enemy)

  /** Tests the arrow's position against the enemy's closed box; only a hit
      on an Alive enemy counts as a shot. */
  function IsHit(e: Enemy, a: Arrows.Arrow, heroX: int, heroY: int, now: int, scale: real): (r: Hit)
    ensures r.hit <==> InClosed(Bounds(e, scale), Point(a.sprite.x, a.sprite.y))
    ensures r.whileAlive <==> r.hit && e.state == Alive
    ensures r.whileAlive ==> r.enemy == Shot(e, heroX, heroY, now)
    ensures !r.whileAlive ==> r.enemy == e
    ensures Healthy(e) ==> Healthy(r.enemy)
    ensures Rank(e.state) <= Rank(r.enemy.state)
    ensures r.enemy.state == Buried <==> e.state == Buried
  {
    var b := Bounds(e, scale);
    if b.min.x <= a.sprite.x && a.sprite.x <= b.max.x && b.min.y <= a.sprite.y && a.sprite.y <= b.max.y then
      if e.state == Alive then Hit(true, true, Shot(e, heroX, heroY, now))
      else Hit(false, true, e)
    else Hit(false, false, e)
  }

  /** The enemy before `NewEnemy` shifts it by half its scaled size. */
  function Unplaced(x: int, y: int, hp: int, boss: bool, image: Image, now: int): Enemy {
    Enemy(x, y, x, y, 0, Alive, image, now, hp, hp, boss)
  }

  /** A fresh Alive enemy with `hp` hitpoints, placed so that `(x, y)` is
      the centre of its scaled box; its start position is where it spawned. */
  function NewEnemy(x: int, y: int, hp: int, boss: bool, image: Image, now: int, scaleOf: Scaler): (e: Enemy)
    ensures e.state == Alive && e.frame == 0 && e.stateTime == now
    ensures e.hitpoints == hp && e.totalHitpoints == hp && e.boss == boss && e.image == image
    ensures e.startX == e.x && e.startY == e.y
    ensures 0.0 <= scaleOf(Unplaced(x, y, hp, boss, image, now)) ==> e.x <= x && e.y <= y
    ensures 0 < hp ==> Healthy(e)
  {
    var e0 := Unplaced(x, y, hp, boss, image, now);
    var scale := scaleOf(e0);
    var nx := x - Trunc((scale * ImageWidth as real) / 2.0);
    var ny := y - Trunc((scale * image.height as real) / 2.0);
    e0.(x := nx, startX := nx, y := ny, startY := ny)
  }

  /** A spawned enemy already stands at its start position. */
  lemma SpawnIsStart(x: int, y: int, hp: int, boss: bool, image: Image, now: int, scaleOf: Scaler)
    ensures ToStart(NewEnemy(x, y, hp, boss, image, now, scaleOf)) == NewEnemy(x, y, hp, boss, image, now, scaleOf)
  {
  }

  /** What can happen to one enemy: a tick, an arrow test, or a rewind to its
      start after the hero loses a life. */
  datatype Event =
    | Tick(now: int, coin: bool, heroX: int, heroY: int)
    | Struck(arrow: Arrows.Arrow, heroX: int, heroY: int, now: int, scale: real)
    | Rewind

  function Replay(e: Enemy, events: seq<Event>): Enemy
    decreases |events|
  {
    if |events| == 0 then e
    else
      var next := match events[0]
        case Tick(now, coin, hx, hy) => Update(e, now, coin, hx, hy)
        case Struck(a, hx, hy, now, scale) => IsHit(e, a, hx, hy, now, scale).enemy
        case Rewind => ToStart(e);
      Replay(next, events[1..])
  }

  /** Over any history, a healthy enemy stays healthy, never gains hitpoints,
      never changes its starting hitpoints, and never returns to an earlier
      state; in particular nothing leaves Buried. */
  lemma {:induction false} LifecycleInvariant(e: Enemy, events: seq<Event>)
    requires Healthy(e)
    ensures var r := Replay(e, events);
      Healthy(r) && r.hitpoints <= e.hitpoints && r.totalHitpoints == e.totalHitpoints
      && Rank(e.state) <= Rank(r.state)
    decreases |events|
  {
    if |events| > 0 {
      var next := match events[0]
        case Tick(now, coin, hx, hy) => Update(e, now, coin, hx, hy)
        case Struck(a, hx, hy, now, scale) => IsHit(e, a, hx, hy, now, scale).enemy
        case Rewind => ToStart(e);
      LifecycleInvariant(next, events[1..]);
    }
  }

  /** A Buried enemy is never touched again by ticks or arrows. */
  lemma {:induction false} BuriedIsFinal(e: Enemy, events: seq<Event>)
    requires e.state == Buried
    requires forall i :: 0 <= i < |events| ==> !events[i].Rewind?
    ensures Replay(e, events) == e
    decreases |events|
  {
    if |events| > 0 {
      BuriedIsFinal(e, events[1..]);
    }
  }
}

=== FILE: game.dfy ===
/** The game controller (`main.go`, type `ArrowsAway`): the top-level state
    machine and the per-tick orchestration of hero, arrows and enemies.
    Everything the host supplies each tick (the connected devices with their
    stick readings and buttons, the clocks, the coin flips, the iteration
    orders of Go's maps and the floating-point parts of arrow flight) is an
    explicit `Input`. */
module ArrowsAway {
  import opened GoInt
  import opened Rects
  import opened Sprites
  import opened Ids
  import Arrows
  import Enemies
  import Heroes
  import Levels

  /** The cooldown between shots, in milliseconds. */
  const MilliBetweenShots := 250

  const StartingLives := 3

  /** Points for each hit on an Alive enemy. */
  const HitScore := 10

  /** The initial window width and height. */
  const ScreenSize := 1000

  /** The base enemy count of both built-in levels. */
  const EnemiesPerLevel := 40

  const FirstLevelName := "Goblins in the grass"
  const SecondLevelName := "Skeletons on the stone"

  datatype GameState = NoClicker | Running | NextStage | LostLife | GameOver | Winner

  /** A device's right stick: at rest, or deflected past half way, in which
      case it aims at the hero's position plus `reach` (the stick reading
      times half the screen size, truncated) and faces `radians`. */
  datatype Aim = Neutral | Deflected(reachX: int, reachY: int, radians: real)

  /** One connected device this tick: the left-stick displacement (rounded
      to a tenth and scaled by 10), the right stick, and whether any
      acknowledgment button is down. */
  datatype Pad = Pad(dx: int, dy: int, aim: Aim, pressed: bool)

  /** What the host supplies for one tick. `now` is in Unix seconds and
      `nowMilli` in milliseconds; `pursuers` are the enemies whose coin
      came up; `lineCoord` gives each arrow's recomputed non-dominant
      coordinate; `enemyOrder` is how Go walked the enemies for each arrow,
      and `arrowOrder` how it walked the arrows. */
  datatype Input = Input(pads: seq<Pad>, now: int, nowMilli: int, pursuers: set<nat>,
                         lineCoord: nat -> int, enemyOrder: nat -> seq<nat>, arrowOrder: seq<nat>)

  datatype Game = Game(height: int, width: int, state: GameState, hero: Heroes.Hero,
                       levelIndex: int, levels: seq<Levels.Level>,
                       enemies: map<nat, Enemies.Enemy>, arrows: map<nat, Arrows.Arrow>,
                       lastShotMilli: int, score: int, lives: int, nextId: nat, arrowImage: Image)

  /** A tick either yields the next game or indexes `levels` out of range,
      which panics in Go. */
  datatype Tick = Ticked(game: Game) | IndexOutOfRange

  /** The controller as written, or corrected: a restart resets every level,
      reconnecting a device returns a finished or lost game to its end
      screen instead of resuming play, and a shot starts the cooldown. */
  datatype Rules = AsWritten | Corrected

  datatype Assets = Assets(hero: Image, arrow: Image, goblin: Image, grass: Image,
                           skeleton: Image, stone: Image)

  // ---------------------------------------------------------------- inputs

  /** `isPadButtonPressed`: the devices are visited in turn and the flag,
      once raised by a device with a button down, is never lowered; so it
      reports whether some connected device has a button down. */
  function AnyPressed(pads: seq<Pad>): (pressed: bool)
    ensures pressed <==> exists i :: 0 <= i < |pads| && pads[i].pressed
    decreases |pads|
  {
    if |pads| == 0 then false
    else
      var earlier := pads[..|pads| - 1];
      assert forall i :: 0 <= i < |earlier| ==> earlier[i] == pads[i];
      AnyPressed(earlier) || pads[|pads| - 1].pressed
  }

  /** The left-stick steps, one per device. */
  function Steps(pads: seq<Pad>): (steps: seq<(int, int)>)
    ensures |steps| == |pads|
  {
    seq(|pads|, i requires 0 <= i < |pads| => (pads[i].dx, pads[i].dy))
  }

  /** The devices whose right stick is deflected. */
  function Deflections(pads: seq<Pad>): nat
    decreases |pads|
  {
    if |pads| == 0 then 0
    else (if pads[0].aim.Deflected? then 1 else 0) + Deflections(pads[1..])
  }

  // ------------------------------------------------------------- invariants

  predicate AllHealthy(m: map<nat, Enemies.Enemy>) {
    forall k :: k in m ==> Enemies.Healthy(m[k])
  }

  /** Identifiers are never reused, and every enemy keeps its health invariant. */
  predicate Consistent(g: Game) {
    Fresh(g.enemies, g.nextId) && Fresh(g.arrows, g.nextId) && AllHealthy(g.enemies)
  }

  // --------------------------------------------------------------- the hero

  /** Some Alive enemy's box overlaps the hero's box. */
  predicate Collides(g: Game, scaleOf: Enemies.Scaler) {
    exists k :: k in g.enemies && g.enemies[k].state == Enemies.Alive
      && Overlaps(Enemies.Bounds(g.enemies[k], scaleOf(g.enemies[k])), Heroes.Bounds(g.hero))
  }

  /** A collision means an Alive enemy and the hero share a pixel. */
  lemma CollisionMeansSharedPixel(g: Game, scaleOf: Enemies.Scaler)
    ensures Collides(g, scaleOf) <==>
      (exists k, p :: k in g.enemies && g.enemies[k].state == Enemies.Alive
         && Covers(Enemies.Bounds(g.enemies[k], scaleOf(g.enemies[k])), p) && Covers(Heroes.Bounds(g.hero), p))
  {
    forall k | k in g.enemies {
      OverlapsIffSharedPixel(Enemies.Bounds(g.enemies[k], scaleOf(g.enemies[k])), Heroes.Bounds(g.hero));
    }
  }

  /** `updateHero`: the first colliding Alive enemy found costs one life;
      the walk stops there, so a tick costs at most one life whatever the
      iteration order. */
  function UpdateHero(g: Game, scaleOf: Enemies.Scaler): (r: Game)
    ensures r == g.(lives := r.lives, state := r.state)
    ensures r.lives == g.lives || r.lives == g.lives - 1
    ensures r.lives == g.lives - 1 <==> Collides(g, scaleOf)
    ensures Collides(g, scaleOf) ==> r.state == (if r.lives == 0 then GameOver else LostLife)
    ensures !Collides(g, scaleOf) ==> r == g
  {
    if Collides(g, scaleOf) then
      var lives := g.lives - 1;
      g.(lives := lives, state := if lives == 0 then GameOver else LostLife)
    else g
  }

  // ------------------------------------------------------------- the arrows

  /** What the first half of `updateArrows` changes: the arrows, the
      identifier counter and the time of the last shot. */
  datatype Volley = Volley(arrows: map<nat, Arrows.Arrow>, nextId: nat, lastShotMilli: int)

  /** One device's turn: a deflected right stick fires an arrow from the
      hero toward its aim point unless the cooldown since `lastShotMilli` is
      still running; a stick at rest clears `lastShotMilli`. As written a
      shot never records its time, so the cooldown never starts; corrected,
      it does. */
  function FireOne(v: Volley, pad: Pad, hero: Heroes.Hero, image: Image, nowMilli: int, rules: Rules): (r: Volley)
    ensures r.nextId == v.nextId || r.nextId == v.nextId + 1
    ensures r.nextId == v.nextId ==> r.arrows == v.arrows
    ensures r.nextId == v.nextId + 1 ==>
      && v.nextId in r.arrows && r.arrows == v.arrows[v.nextId := r.arrows[v.nextId]]
      && r.arrows[v.nextId].sprite.x == hero.x && r.arrows[v.nextId].sprite.y == hero.y
      && pad.aim.Deflected?
      && r.arrows[v.nextId].endX == hero.x + pad.aim.reachX && r.arrows[v.nextId].endY == hero.y + pad.aim.reachY
      && r.arrows[v.nextId].xInc == Arrows.Increment(hero.x, hero.x + pad.aim.reachX)
      && r.arrows[v.nextId].yInc == Arrows.Increment(hero.y, hero.y + pad.aim.reachY)
    ensures rules == AsWritten && v.lastShotMilli == 0 ==>
      r.lastShotMilli == 0 && (r.nextId == v.nextId + 1 <==> pad.aim.Deflected?)
  {
    match pad.aim
    case Neutral => v.(lastShotMilli := 0)
    case Deflected(reachX, reachY, radians) =>
      if v.lastShotMilli == 0 || nowMilli >= v.lastShotMilli + MilliBetweenShots then
        var a := Arrows.NewArrow(hero.x, hero.y, hero.x + reachX, hero.y + reachY, image, radians);
        v.(arrows := v.arrows[v.nextId := a], nextId := v.nextId + 1,
           lastShotMilli := if rules == Corrected then nowMilli else v.lastShotMilli)
      else v
  }

  /** The first half of `updateArrows`, over the connected devices in the
      order the game visits them. New arrows take consecutive identifiers
      and start at the hero; existing arrows are untouched. As written
      nothing sets `lastShotMilli` to a non-zero value, so from a zero start
      every deflected stick fires. */
  function Fire(v: Volley, pads: seq<Pad>, hero: Heroes.Hero, image: Image, nowMilli: int, rules: Rules): (r: Volley)
    ensures v.nextId <= r.nextId
    ensures r.arrows.Keys == v.arrows.Keys + IdRange(v.nextId, r.nextId - v.nextId)
    ensures forall k :: k in v.arrows && k < v.nextId ==> k in r.arrows && r.arrows[k] == v.arrows[k]
    ensures rules == AsWritten && v.lastShotMilli == 0 ==>
      r.lastShotMilli == 0 && r.nextId == v.nextId + Deflections(pads)
    decreases |pads|
  {
    if |pads| == 0 then v
    else
      var next := FireOne(v, pads[0], hero, image, nowMilli, rules);
      var r := Fire(next, pads[1..], hero, image, nowMilli, rules);
      IdRangeSplit(v.nextId, next.nextId - v.nextId, r.nextId - next.nextId);
      r
  }

  /** Every arrow fired in one tick starts at the hero's position. */
  lemma {:induction false} FireLaunchesFromHero(v: Volley, pads: seq<Pad>, hero: Heroes.Hero, image: Image, nowMilli: int,
                                                rules: Rules)
    ensures forall k :: v.nextId <= k < Fire(v, pads, hero, image, nowMilli, rules).nextId ==>
      && Fire(v, pads, hero, image, nowMilli, rules).arrows[k].sprite.x == hero.x
      && Fire(v, pads, hero, image, nowMilli, rules).arrows[k].sprite.y == hero.y
    decreases |pads|
  {
    if |pads| > 0 {
      var next := FireOne(v, pads[0], hero, image, nowMilli, rules);
      var r := Fire(next, pads[1..], hero, image, nowMilli, rules);
      FireLaunchesFromHero(next, pads[1..], hero, image, nowMilli, rules);
      forall k | v.nextId <= k < r.nextId
        ensures r.arrows[k].sprite.x == hero.x && r.arrows[k].sprite.y == hero.y
      {
        if k < next.nextId {
          assert k == v.nextId && k in next.arrows;
          assert r.arrows[k] == next.arrows[k];
        } else {
          assert next.nextId <= k < r.nextId;
        }
      }
    }
  }

  /** While the cooldown runs a deflected stick does not fire, under either
      rules. */
  lemma CooldownHoldsFire(v: Volley, pad: Pad, hero: Heroes.Hero, image: Image, nowMilli: int, rules: Rules)
    requires v.lastShotMilli != 0 && nowMilli < v.lastShotMilli + MilliBetweenShots
    ensures FireOne(v, pad, hero, image, nowMilli, rules).nextId == v.nextId
  {
  }

  /** As written, a stick held deflected fires on every tick, however
      close together the ticks are: the cooldown never starts. */
  lemma HeldStickFiresEveryTick(v: Volley, pad: Pad, hero: Heroes.Hero, image: Image, first: int, second: int)
    requires v.lastShotMilli == 0 && pad.aim.Deflected?
    ensures var once := Fire(v, [pad], hero, image, first, AsWritten);
      && once.nextId == v.nextId + 1
      && Fire(once, [pad], hero, image, second, AsWritten).nextId == v.nextId + 2
  {
    assert Deflections([pad]) == 1;
  }

  /** Corrected, a shot records its time, and the same stick held
      deflected does not fire again until `MilliBetweenShots` have passed. */
  lemma CooldownSpacesShots(v: Volley, pad: Pad, hero: Heroes.Hero, image: Image, first: int, second: int)
    requires v.lastShotMilli == 0 && pad.aim.Deflected? && first != 0
    ensures var once := Fire(v, [pad], hero, image, first, Corrected);
      && once.nextId == v.nextId + 1 && once.lastShotMilli == first
      && (second < first + MilliBetweenShots ==> Fire(once, [pad], hero, image, second, Corrected).nextId == once.nextId)
      && (first + MilliBetweenShots <= second ==> Fire(once, [pad], hero, image, second, Corrected).nextId == once.nextId + 1)
  {
    var once := FireOne(v, pad, hero, image, first, Corrected);
    assert Fire(v, [pad], hero, image, first, Corrected) == once;
    assert Fire(once, [pad], hero, image, second, Corrected) == FireOne(once, pad, hero, image, second, Corrected);
  }

  /** The game after the first half of `updateArrows`. */
  function Fired(g: Game, pads: seq<Pad>, nowMilli: int, rules: Rules): (r: Game)
    ensures r == g.(arrows := r.arrows, nextId := r.nextId, lastShotMilli := r.lastShotMilli)
    ensures g.nextId <= r.nextId
    ensures Fresh(g.arrows, g.nextId) ==> Fresh(r.arrows, r.nextId) && g.arrows.Keys <= r.arrows.Keys
    ensures r.arrows.Keys == g.arrows.Keys + IdRange(g.nextId, r.nextId - g.nextId)
    ensures Fresh(g.arrows, g.nextId) ==> forall k :: k in g.arrows ==> r.arrows[k] == g.arrows[k]
    ensures rules == AsWritten && g.lastShotMilli == 0 ==>
      r.lastShotMilli == 0 && r.nextId == g.nextId + Deflections(pads)
  {
    var v := Fire(Volley(g.arrows, g.nextId, g.lastShotMilli), pads, g.hero, g.arrowImage, nowMilli, rules);
    g.(arrows := v.arrows, nextId := v.nextId, lastShotMilli := v.lastShotMilli)
  }

  /** The result of walking the enemies for one arrow. */
  datatype Scan = Scan(enemies: map<nat, Enemies.Enemy>, bonus: int, hit: bool)

  /** The enemies in `order` that an arrow strikes while they are Alive. */
  function AliveHits(enemies: map<nat, Enemies.Enemy>, order: seq<nat>, a: Arrows.Arrow,
                     heroX: int, heroY: int, now: int, scaleOf: Enemies.Scaler): set<nat>
  {
    set k | k in order && k in enemies
      && Enemies.IsHit(enemies[k], a, heroX, heroY, now, scaleOf(enemies[k])).whileAlive
  }

  /** Taking the first enemy of the walk off the front splits the alive hits. */
  lemma AliveHitsSplit(enemies: map<nat, Enemies.Enemy>, order: seq<nat>, a: Arrows.Arrow,
                       heroX: int, heroY: int, now: int, scaleOf: Enemies.Scaler)
    requires 0 < |order| && Distinct(order)
    requires forall i :: 0 <= i < |order| ==> order[i] in enemies
    ensures var k := order[0];
      var h := Enemies.IsHit(enemies[k], a, heroX, heroY, now, scaleOf(enemies[k]));
      |AliveHits(enemies, order, a, heroX, heroY, now, scaleOf)|
        == (if h.whileAlive then 1 else 0)
           + |AliveHits(enemies[k := h.enemy], order[1..], a, heroX, heroY, now, scaleOf)|
  {
    var k := order[0];
    var h := Enemies.IsHit(enemies[k], a, heroX, heroY, now, scaleOf(enemies[k]));
    var rest := enemies[k := h.enemy];
    var all := AliveHits(enemies, order, a, heroX, heroY, now, scaleOf);
    var later := AliveHits(rest, order[1..], a, heroX, heroY, now, scaleOf);
    assert k !in order[1..] by {
      forall i | 0 <= i < |order[1..]| ensures order[1..][i] != k {
        assert order[1..][i] == order[i + 1];
      }
    }
    forall j | j in order[1..] ensures j in order && j != k && rest[j] == enemies[j] {
    }
    forall j | j in order ensures j == k || j in order[1..] {
      if j != k {
        var i :| 0 <= i < |order| && order[i] == j;
        assert order[1..][i - 1] == j;
      }
    }
    if h.whileAlive {
      assert all == later + {k};
    } else {
      assert all == later;
    }
  }

  /** `hitEnemy`: tests one arrow against every enemy in the walk order,
      shooting those it strikes while Alive. Each enemy is visited once and
      only its own entry changes, so all but the returned flag are the same
      for every order: the score gain is 10 per Alive enemy struck. The flag
      is the `hit` of the LAST enemy visited, not whether any was struck. */
  function HitEnemy(enemies: map<nat, Enemies.Enemy>, order: seq<nat>, a: Arrows.Arrow,
                    heroX: int, heroY: int, now: int, scaleOf: Enemies.Scaler): (r: Scan)
    requires Distinct(order) && forall i :: 0 <= i < |order| ==> order[i] in enemies
    ensures r.enemies.Keys == enemies.Keys
    ensures forall k :: k in enemies ==>
      r.enemies[k] == (if k in order then Enemies.IsHit(enemies[k], a, heroX, heroY, now, scaleOf(enemies[k])).enemy
                       else enemies[k])
    decreases |order|
  {
    if |order| == 0 then Scan(enemies, 0, false)
    else
      var k := order[0];
      var h := Enemies.IsHit(enemies[k], a, heroX, heroY, now, scaleOf(enemies[k]));
      assert Distinct(order[1..]);
      assert k !in order[1..] by {
        forall i | 0 <= i < |order[1..]| ensures order[1..][i] != k {
          assert order[1..][i] == order[i + 1];
        }
      }
      var rest := HitEnemy(enemies[k := h.enemy], order[1..], a, heroX, heroY, now, scaleOf);
      assert forall j :: j in order ==> j == k || j in order[1..];
      Scan(rest.enemies, (if h.whileAlive then HitScore else 0) + rest.bonus,
           if |order| == 1 then h.hit else rest.hit)
  }

  /** The flag `hitEnemy` returns is whether the LAST enemy of the walk
      was struck; earlier strikes are forgotten. */
  lemma {:induction false} HitEnemyReportsLastEnemy(enemies: map<nat, Enemies.Enemy>, order: seq<nat>,
                                                    a: Arrows.Arrow, heroX: int, heroY: int, now: int,
                                                    scaleOf: Enemies.Scaler)
    requires Distinct(order) && forall i :: 0 <= i < |order| ==> order[i] in enemies
    ensures HitEnemy(enemies, order, a, heroX, heroY, now, scaleOf).hit <==>
      (0 < |order| && Enemies.IsHit(enemies[order[|order| - 1]], a, heroX, heroY, now,
                                    scaleOf(enemies[order[|order| - 1]])).hit)
    decreases |order|
  {
    if 1 < |order| {
      var k := order[0];
      var h := Enemies.IsHit(enemies[k], a, heroX, heroY, now, scaleOf(enemies[k]));
      var rest := order[1..];
      assert Distinct(rest);
      assert k != order[|order| - 1];
      assert rest[|rest| - 1] == order[|order| - 1];
      HitEnemyReportsLastEnemy(enemies[k := h.enemy], rest, a, heroX, heroY, now, scaleOf);
    }
  }

  /** `hitEnemy` raises the score by exactly 10 for each enemy the arrow
      strikes while Alive, whatever the order of the walk. */
  lemma {:induction false} HitEnemyScoresPerAliveHit(enemies: map<nat, Enemies.Enemy>, order: seq<nat>,
                                                     a: Arrows.Arrow, heroX: int, heroY: int, now: int,
                                                     scaleOf: Enemies.Scaler)
    requires Distinct(order) && forall i :: 0 <= i < |order| ==> order[i] in enemies
    ensures HitEnemy(enemies, order, a, heroX, heroY, now, scaleOf).bonus
         == HitScore * |AliveHits(enemies, order, a, heroX, heroY, now, scaleOf)|
    ensures 0 <= HitEnemy(enemies, order, a, heroX, heroY, now, scaleOf).bonus
    decreases |order|
  {
    if 0 < |order| {
      var k := order[0];
      var h := Enemies.IsHit(enemies[k], a, heroX, heroY, now, scaleOf(enemies[k]));
      assert Distinct(order[1..]);
      assert k !in order[1..] by {
        forall i | 0 <= i < |order[1..]| ensures order[1..][i] != k {
          assert order[1..][i] == order[i + 1];
        }
      }
      HitEnemyScoresPerAliveHit(enemies[k := h.enemy], order[1..], a, heroX, heroY, now, scaleOf);
      AliveHitsSplit(enemies, order, a, heroX, heroY, now, scaleOf);
    }
  }

  /** What the second loop of `updateArrows` changes: the enemies, the
      arrows and the score. */
  datatype Skirmish = Skirmish(enemies: map<nat, Enemies.Enemy>, arrows: map<nat, Arrows.Arrow>, score: int)

  /** The order the enemies are walked in for one arrow. */
  function EnemyWalk(enemies: map<nat, Enemies.Enemy>, id: nat, input: Input): (order: seq<nat>)
    ensures IsEnumeration(order, enemies.Keys)
  {
    IterationOrder(input.enemyOrder(id), enemies.Keys)
  }

  /** The walk never buries an enemy, never brings one back to life, and
      keeps every enemy's health invariant. */
  lemma WalkKeepsLifecycle(enemies: map<nat, Enemies.Enemy>, order: seq<nat>, a: Arrows.Arrow,
                           heroX: int, heroY: int, now: int, scaleOf: Enemies.Scaler)
    requires Distinct(order) && forall i :: 0 <= i < |order| ==> order[i] in enemies
    ensures var r := HitEnemy(enemies, order, a, heroX, heroY, now, scaleOf).enemies;
      forall k :: k in enemies ==>
        && (r[k].state == Enemies.Buried <==> enemies[k].state == Enemies.Buried)
        && Enemies.Rank(enemies[k].state) <= Enemies.Rank(r[k].state)
        && (Enemies.Healthy(enemies[k]) ==> Enemies.Healthy(r[k]))
  {
    var r := HitEnemy(enemies, order, a, heroX, heroY, now, scaleOf).enemies;
    forall k | k in enemies
      ensures r[k].state == Enemies.Buried <==> enemies[k].state == Enemies.Buried
      ensures Enemies.Rank(enemies[k].state) <= Enemies.Rank(r[k].state)
      ensures Enemies.Healthy(enemies[k]) ==> Enemies.Healthy(r[k])
    {
      if k in order {
        var h := Enemies.IsHit(enemies[k], a, heroX, heroY, now, scaleOf(enemies[k]));
        assert r[k] == h.enemy;
      }
    }
  }

  lemma {:induction false} SameRemainder(before: int, after: int, n: nat)
    requires after == before + HitScore * n
    ensures after % HitScore == before % HitScore
    decreases n
  {
    if n > 0 {
      SameRemainder(before, after - HitScore, n - 1);
    }
  }

  /** One pass of the second loop of `updateArrows`: the arrow is checked
      against the enemies, and removed if the flag `hitEnemy` returns is set
      or it has left the screen. */
  function ResolveArrow(s: Skirmish, id: nat, hero: Heroes.Hero, width: int, height: int,
                        input: Input, scaleOf: Enemies.Scaler): (r: Skirmish)
    requires id in s.arrows
    ensures r.enemies.Keys == s.enemies.Keys
    ensures r.arrows == s.arrows || r.arrows == s.arrows - {id}
    ensures Arrows.IsOffScreen(s.arrows[id], width, height) ==> id !in r.arrows
  {
    var a := s.arrows[id];
    var scan := HitEnemy(s.enemies, EnemyWalk(s.enemies, id, input), a, hero.x, hero.y, input.now, scaleOf);
    var arrows := if scan.hit || Arrows.IsOffScreen(a, width, height) then s.arrows - {id} else s.arrows;
    Skirmish(scan.enemies, arrows, s.score + scan.bonus)
  }

  /** One arrow raises the score by 10 per Alive enemy it strikes, so the
      score only grows and keeps its remainder modulo 10. */
  lemma ResolveArrowScore(s: Skirmish, id: nat, hero: Heroes.Hero, width: int, height: int,
                          input: Input, scaleOf: Enemies.Scaler)
    requires id in s.arrows
    ensures ResolveArrow(s, id, hero, width, height, input, scaleOf).score
         == s.score + HitScore * |AliveHits(s.enemies, EnemyWalk(s.enemies, id, input), s.arrows[id],
                                            hero.x, hero.y, input.now, scaleOf)|
    ensures s.score <= ResolveArrow(s, id, hero, width, height, input, scaleOf).score
    ensures ResolveArrow(s, id, hero, width, height, input, scaleOf).score % HitScore == s.score % HitScore
  {
    var order := EnemyWalk(s.enemies, id, input);
    var score := ResolveArrow(s, id, hero, width, height, input, scaleOf).score;
    var n := |AliveHits(s.enemies, order, s.arrows[id], hero.x, hero.y, input.now, scaleOf)|;
    assert score == s.score + HitScore * n by {
      HitEnemyScoresPerAliveHit(s.enemies, order, s.arrows[id], hero.x, hero.y, input.now, scaleOf);
    }
    SameRemainder(s.score, score, n);
  }

  /** One arrow neither buries nor revives an enemy, and every enemy keeps
      its health invariant. */
  lemma ResolveArrowLifecycle(s: Skirmish, id: nat, hero: Heroes.Hero, width: int, height: int,
                              input: Input, scaleOf: Enemies.Scaler)
    requires id in s.arrows
    ensures forall k :: k in s.enemies ==>
      && (ResolveArrow(s, id, hero, width, height, input, scaleOf).enemies[k].state == Enemies.Buried
          <==> s.enemies[k].state == Enemies.Buried)
      && Enemies.Rank(s.enemies[k].state)
         <= Enemies.Rank(ResolveArrow(s, id, hero, width, height, input, scaleOf).enemies[k].state)
      && (Enemies.Healthy(s.enemies[k]) ==> Enemies.Healthy(ResolveArrow(s, id, hero, width, height, input, scaleOf).enemies[k]))
  {
    WalkKeepsLifecycle(s.enemies, EnemyWalk(s.enemies, id, input), s.arrows[id], hero.x, hero.y, input.now, scaleOf);
  }

  /** An arrow is removed exactly when it has left the screen or the LAST
      enemy of its walk reports a hit; a strike on an earlier enemy alone
      leaves the arrow flying. */
  lemma ResolveArrowRemoval(s: Skirmish, id: nat, hero: Heroes.Hero, width: int, height: int,
                            input: Input, scaleOf: Enemies.Scaler)
    requires id in s.arrows
    ensures var order := EnemyWalk(s.enemies, id, input);
      id !in ResolveArrow(s, id, hero, width, height, input, scaleOf).arrows <==>
        || Arrows.IsOffScreen(s.arrows[id], width, height)
        || (0 < |order| && Enemies.IsHit(s.enemies[order[|order| - 1]], s.arrows[id], hero.x, hero.y, input.now,
                                         scaleOf(s.enemies[order[|order| - 1]])).hit)
  {
    HitEnemyReportsLastEnemy(s.enemies, EnemyWalk(s.enemies, id, input), s.arrows[id], hero.x, hero.y, input.now, scaleOf);
  }

  /** With no enemy on the field nothing can be struck, so an arrow stays
      exactly when it is still on screen. */
  lemma ResolveArrowOnEmptyField(s: Skirmish, id: nat, hero: Heroes.Hero, width: int, height: int,
                                 input: Input, scaleOf: Enemies.Scaler)
    requires id in s.arrows
    ensures var r := ResolveArrow(s, id, hero, width, height, input, scaleOf);
      s.enemies == map[] ==> r.enemies == map[] && (id in r.arrows <==> !Arrows.IsOffScreen(s.arrows[id], width, height))
  {
    if s.enemies == map[] {
      ResolveArrowRemoval(s, id, hero, width, height, input, scaleOf);
    }
  }

  /** The second loop of `updateArrows`, over the arrows in the order Go
      walks them. An arrow already removed is not visited again. Afterwards
      no arrow that was visited is off screen, arrows are only removed, and
      the score has risen by a multiple of 10. */
  function ResolveArrows(s: Skirmish, ids: seq<nat>, hero: Heroes.Hero, width: int, height: int,
                         input: Input, scaleOf: Enemies.Scaler): (r: Skirmish)
    ensures r.enemies.Keys == s.enemies.Keys
    ensures forall k :: k in s.enemies ==>
      && (r.enemies[k].state == Enemies.Buried <==> s.enemies[k].state == Enemies.Buried)
      && Enemies.Rank(s.enemies[k].state) <= Enemies.Rank(r.enemies[k].state)
      && (Enemies.Healthy(s.enemies[k]) ==> Enemies.Healthy(r.enemies[k]))
    ensures r.arrows.Keys <= s.arrows.Keys
    ensures forall k :: k in r.arrows ==> r.arrows[k] == s.arrows[k]
    ensures forall k :: k in s.arrows && k !in ids ==> k in r.arrows
    ensures forall k :: k in r.arrows && k in ids ==> !Arrows.IsOffScreen(r.arrows[k], width, height)
    ensures s.score <= r.score && r.score % HitScore == s.score % HitScore
    ensures s.enemies == map[] ==>
      forall k :: k in s.arrows && !Arrows.IsOffScreen(s.arrows[k], width, height) ==> k in r.arrows
    decreases |ids|
  {
    if |ids| == 0 then s
    else if ids[0] !in s.arrows then ResolveArrows(s, ids[1..], hero, width, height, input, scaleOf)
    else
      var next := ResolveArrow(s, ids[0], hero, width, height, input, scaleOf);
      ResolveArrowScore(s, ids[0], hero, width, height, input, scaleOf);
      ResolveArrowLifecycle(s, ids[0], hero, width, height, input, scaleOf);
      ResolveArrowOnEmptyField(s, ids[0], hero, width, height, input, scaleOf);
      assert forall k :: k in ids ==> k == ids[0] || k in ids[1..];
      ResolveArrows(next, ids[1..], hero, width, height, input, scaleOf)
  }

  /** The game after the second loop of `updateArrows`. */
  function Resolved(g: Game, input: Input, scaleOf: Enemies.Scaler): (r: Game)
    ensures r == g.(enemies := r.enemies, arrows := r.arrows, score := r.score)
    ensures r.enemies.Keys == g.enemies.Keys
    ensures forall k :: k in g.enemies ==>
      && (r.enemies[k].state == Enemies.Buried <==> g.enemies[k].state == Enemies.Buried)
      && (Enemies.Healthy(g.enemies[k]) ==> Enemies.Healthy(r.enemies[k]))
    ensures r.arrows.Keys <= g.arrows.Keys
    ensures forall k :: k in r.arrows ==> r.arrows[k] == g.arrows[k] && !Arrows.IsOffScreen(r.arrows[k], g.width, g.height)
    ensures g.score <= r.score && r.score % HitScore == g.score % HitScore
    ensures g.enemies == map[] ==>
      forall k :: k in g.arrows && !Arrows.IsOffScreen(g.arrows[k], g.width, g.height) ==> k in r.arrows
  {
    var order := IterationOrder(input.arrowOrder, g.arrows.Keys);
    var s := ResolveArrows(Skirmish(g.enemies, g.arrows, g.score), order, g.hero, g.width, g.height, input, scaleOf);
    g.(enemies := s.enemies, arrows := s.arrows, score := s.score)
  }

  /** The last loop of `updateArrows`: every remaining arrow flies one tick. */
  function AdvanceArrows(arrows: map<nat, Arrows.Arrow>, lineCoord: nat -> int): (r: map<nat, Arrows.Arrow>)
    ensures r.Keys == arrows.Keys
    ensures forall k :: k in r ==>
      && r[k] == arrows[k].(sprite := arrows[k].sprite.(x := r[k].sprite.x, y := r[k].sprite.y))
      && (arrows[k].xInc != 0 ==> r[k].sprite.x == arrows[k].sprite.x + arrows[k].xInc)
      && (arrows[k].xInc == 0 ==> r[k].sprite.y == arrows[k].sprite.y + arrows[k].yInc)
  {
    map k | k in arrows :: Arrows.Update(arrows[k], lineCoord(k))
  }

  /** `updateEnemies`: buried enemies are dropped, then every other enemy
      takes its tick, stepping toward the hero when its coin came up. */
  function UpdateEnemies(enemies: map<nat, Enemies.Enemy>, now: int, pursuers: set<nat>,
                         heroX: int, heroY: int): (r: map<nat, Enemies.Enemy>)
    ensures forall k :: k in r <==> k in enemies && enemies[k].state != Enemies.Buried
    ensures forall k :: k in r ==> Enemies.Rank(enemies[k].state) <= Enemies.Rank(r[k].state)
    ensures forall k :: k in r && enemies[k].state == Enemies.Alive ==>
      r[k].state == Enemies.Alive && Abs(r[k].x - enemies[k].x) <= 1 && Abs(r[k].y - enemies[k].y) <= 1
    ensures AllHealthy(enemies) ==> AllHealthy(r)
    ensures forall k :: k in r && enemies[k].state == Enemies.Dead ==>
      (r[k].state == Enemies.Buried <==> now > enemies[k].stateTime + Enemies.DecaySeconds)
    ensures forall k :: k in r && enemies[k].state == Enemies.Alive && k in pursuers ==>
      var toward := Enemies.MoveTowardHero(enemies[k], heroX, heroY);
      r[k].x == toward.x && r[k].y == toward.y
    ensures forall k :: k in r && enemies[k].state == Enemies.Alive && k !in pursuers ==>
      r[k].x == enemies[k].x && r[k].y == enemies[k].y
    ensures forall k :: k in r ==>
      r[k] == enemies[k].(x := r[k].x, y := r[k].y, frame := r[k].frame, state := r[k].state, stateTime := r[k].stateTime)
    ensures forall k :: k in r && enemies[k].state == Enemies.Alive ==>
      && r[k].stateTime == enemies[k].stateTime
      && (enemies[k].stateTime <= now ==> r[k].frame == (now - enemies[k].stateTime) % 2)
    ensures forall k :: k in r && enemies[k].state == Enemies.Dead ==>
      && r[k].x == enemies[k].x && r[k].y == enemies[k].y
      && (r[k].state == Enemies.Buried ==> r[k].stateTime == now && r[k].frame == enemies[k].frame)
      && (r[k].state != Enemies.Buried ==> r[k].stateTime == enemies[k].stateTime && r[k].frame == Enemies.DecayFrame)
  {
    map k | k in enemies && enemies[k].state != Enemies.Buried
      :: Enemies.Update(enemies[k], now, k in pursuers, heroX, heroY)
  }

  // -------------------------------------------------------------- a tick

  /** The game after `hero.Update`: every device's left stick has moved the hero. */
  function Moved(g: Game, input: Input): (r: Game)
    ensures r == g.(hero := r.hero)
    ensures r.hero.image == g.hero.image && r.hero.imageWidth == g.hero.imageWidth
    ensures |input.pads| == 0 ==> r == g
    ensures 0 < |input.pads| && Heroes.XLow(g.hero) <= Heroes.XHigh(g.hero, g.width) ==>
      Heroes.XLow(g.hero) <= r.hero.x <= Heroes.XHigh(g.hero, g.width)
    ensures 0 < |input.pads| && Heroes.YLow(g.hero) <= Heroes.YHigh(g.hero, g.height) ==>
      Heroes.YLow(g.hero) <= r.hero.y <= Heroes.YHigh(g.hero, g.height)
  {
    g.(hero := Heroes.Update(g.hero, Steps(input.pads), g.height, g.width))
  }

  /** The body of the Running case up to the wave check: move the hero,
      test it against the enemies, fire, resolve and fly the arrows, and
      tick the enemies. The level bookkeeping is untouched. */
  function Combat(g: Game, input: Input, scaleOf: Enemies.Scaler, rules: Rules): (r: Game)
    ensures r.width == g.width && r.height == g.height && r.arrowImage == g.arrowImage
    ensures r.levels == g.levels && r.levelIndex == g.levelIndex
    ensures r.lives == g.lives - (if Collides(Moved(g, input), scaleOf) then 1 else 0)
    ensures Collides(Moved(g, input), scaleOf) ==> r.state == (if r.lives == 0 then GameOver else LostLife)
    ensures !Collides(Moved(g, input), scaleOf) ==> r.state == g.state
    ensures g.score <= r.score && r.score % HitScore == g.score % HitScore
    ensures g.nextId <= r.nextId
    ensures rules == AsWritten && g.lastShotMilli == 0 ==>
      r.lastShotMilli == 0 && r.nextId == g.nextId + Deflections(input.pads)
    ensures Consistent(g) ==> Consistent(r)
    ensures r.enemies.Keys <= g.enemies.Keys
  {
    var moved := Moved(g, input);
    var struck := UpdateHero(moved, scaleOf);
    var fired := Fired(struck, input.pads, input.nowMilli, rules);
    var resolved := Resolved(fired, input, scaleOf);
    var flown := resolved.(arrows := AdvanceArrows(resolved.arrows, input.lineCoord));
    flown.(enemies := UpdateEnemies(flown.enemies, input.now, input.pursuers, flown.hero.x, flown.hero.y))
  }

  /** An Alive enemy that reaches the hero is still on the field at the end
      of the tick (an arrow can only kill it, and only buried enemies are
      removed), so a lost life is never masked by the wave check. */
  lemma StruckHeroKeepsItsAttacker(g: Game, input: Input, scaleOf: Enemies.Scaler, rules: Rules)
    requires Collides(Moved(g, input), scaleOf)
    ensures 0 < |Combat(g, input, scaleOf, rules).enemies|
  {
    var moved := Moved(g, input);
    var k :| k in moved.enemies && moved.enemies[k].state == Enemies.Alive
      && Overlaps(Enemies.Bounds(moved.enemies[k], scaleOf(moved.enemies[k])), Heroes.Bounds(moved.hero));
    var struck := UpdateHero(moved, scaleOf);
    var fired := Fired(struck, input.pads, input.nowMilli, rules);
    var resolved := Resolved(fired, input, scaleOf);
    assert k in resolved.enemies && resolved.enemies[k].state != Enemies.Buried;
    assert k in Combat(g, input, scaleOf, rules).enemies;
  }

  /** The wave check's branch for a level whose stages are used up: the
      next level takes over with its first wave, or the game is won when
      there is no next level. */
  function NextLevel(g: Game, now: int, scaleOf: Enemies.Scaler): (r: Game)
    requires 0 <= g.levelIndex < |g.levels| && Levels.Complete(g.levels[g.levelIndex])
    ensures r == g.(levelIndex := r.levelIndex, enemies := r.enemies, nextId := r.nextId, state := r.state)
    ensures r.levelIndex == g.levelIndex + 1 && g.nextId <= r.nextId
    ensures r.levels == g.levels && r.width == g.width && r.height == g.height
    ensures r.state == Winner <==> r.levelIndex == |g.levels|
    ensures r.state == Winner ==> r.enemies == g.enemies
    ensures r.state != Winner ==>
      r.enemies == Levels.PopulateEnemies(g.levels[r.levelIndex], g.width, g.height, g.enemies,
                                          g.nextId, now, scaleOf).enemies
    ensures r.state == Winner ==> r == g.(levelIndex := r.levelIndex, state := Winner)
    ensures r.state != Winner ==>
      && r.state == NextStage && r.levelIndex < |g.levels|
      && r == g.(levelIndex := r.levelIndex, state := NextStage,
                 enemies := Levels.PopulateEnemies(g.levels[r.levelIndex], g.width, g.height, g.enemies,
                                                   g.nextId, now, scaleOf).enemies,
                 nextId := g.nextId + Levels.SpawnCount(g.levels[r.levelIndex]))
    ensures Consistent(g) ==> Consistent(r)
  {
    var li := g.levelIndex + 1;
    if li == |g.levels| then g.(levelIndex := li, state := Winner)
    else
      var p := Levels.PopulateEnemies(g.levels[li], g.width, g.height, g.enemies, g.nextId, now, scaleOf);
      g.(levelIndex := li, enemies := p.enemies, nextId := p.nextId, state := NextStage)
  }

  /** The wave check's branch for a level with stages left: the level moves
      to its next stage and that stage's wave is populated. */
  function NextWave(g: Game, now: int, scaleOf: Enemies.Scaler): (r: Game)
    requires 0 <= g.levelIndex < |g.levels| && !Levels.Complete(g.levels[g.levelIndex])
    ensures r == g.(levels := r.levels, enemies := r.enemies, nextId := r.nextId, state := NextStage)
    ensures r.levels == g.levels[g.levelIndex := Levels.NextStage(g.levels[g.levelIndex])]
    ensures r.levels[g.levelIndex].stage == g.levels[g.levelIndex].stage + 1
    ensures r.enemies == Levels.PopulateEnemies(r.levels[g.levelIndex], g.width, g.height, g.enemies,
                                                g.nextId, now, scaleOf).enemies
    ensures r.nextId == g.nextId + Levels.SpawnCount(r.levels[g.levelIndex])
    ensures Consistent(g) ==> Consistent(r)
  {
    var level := Levels.NextStage(g.levels[g.levelIndex]);
    var p := Levels.PopulateEnemies(level, g.width, g.height, g.enemies, g.nextId, now, scaleOf);
    g.(levels := g.levels[g.levelIndex := level], enemies := p.enemies, nextId := p.nextId, state := NextStage)
  }

  /** The wave check at the end of a Running tick, once the field is empty.
      Indexing `levels` past its end panics in Go. */
  function WaveCleared(g: Game, now: int, scaleOf: Enemies.Scaler): (r: Tick)
    ensures r.IndexOutOfRange? <==> !(0 <= g.levelIndex < |g.levels|)
    ensures r.Ticked? ==>
      && r.game.width == g.width && r.game.height == g.height && |r.game.levels| == |g.levels|
      && r.game.lastShotMilli == g.lastShotMilli && r.game.lives == g.lives && r.game.score == g.score
    ensures r.Ticked? && Levels.Complete(g.levels[g.levelIndex]) ==> r.game == NextLevel(g, now, scaleOf)
    ensures r.Ticked? && !Levels.Complete(g.levels[g.levelIndex]) ==> r.game == NextWave(g, now, scaleOf)
  {
    if !(0 <= g.levelIndex < |g.levels|) then IndexOutOfRange
    else if Levels.Complete(g.levels[g.levelIndex]) then Ticked(NextLevel(g, now, scaleOf))
    else Ticked(NextWave(g, now, scaleOf))
  }

  /** The Running case: the combat, then the wave check when no enemy is left. */
  function RunningTick(g: Game, input: Input, scaleOf: Enemies.Scaler, rules: Rules): (r: Tick)
    ensures r.IndexOutOfRange? <==>
      |Combat(g, input, scaleOf, rules).enemies| == 0 && !(0 <= g.levelIndex < |g.levels|)
    ensures r.Ticked? ==> |r.game.levels| == |g.levels| && r.game.width == g.width && r.game.height == g.height
    ensures r.Ticked? && Consistent(g) ==> Consistent(r.game)
    ensures r.Ticked? && rules == AsWritten && g.lastShotMilli == 0 ==> r.game.lastShotMilli == 0
  {
    var c := Combat(g, input, scaleOf, rules);
    if |c.enemies| == 0 then WaveCleared(c, input.now, scaleOf) else Ticked(c)
  }

  /** The LostLife case once a button is pressed: the hero is centred, the
      enemies that are not Alive are dropped, the rest go back to where they
      spawned, and play resumes. */
  function Retry(g: Game): (r: Game)
    ensures r == g.(hero := r.hero, enemies := r.enemies, state := r.state)
    ensures r.state == Running && r.hero == Heroes.Center(g.hero, g.width, g.height)
    ensures forall k :: k in r.enemies <==> k in g.enemies && g.enemies[k].state == Enemies.Alive
    ensures forall k :: k in r.enemies ==>
      && r.enemies[k].x == g.enemies[k].startX && r.enemies[k].y == g.enemies[k].startY
      && r.enemies[k].(x := g.enemies[k].x, y := g.enemies[k].y) == g.enemies[k]
    ensures Consistent(g) ==> Consistent(r)
  {
    var alive := map k | k in g.enemies && g.enemies[k].state == Enemies.Alive :: Enemies.ToStart(g.enemies[k]);
    g.(hero := Heroes.Center(g.hero, g.width, g.height), enemies := alive, state := Running)
  }

  /** Every level back at its first stage. */
  function ResetAll(levels: seq<Levels.Level>): (r: seq<Levels.Level>)
    ensures |r| == |levels|
    ensures forall i :: 0 <= i < |r| ==> r[i].stage == 0 && r[i].(stage := levels[i].stage) == levels[i]
  {
    seq(|levels|, i requires 0 <= i < |levels| => Levels.Reset(levels[i]))
  }

  /** The levels a restart leaves: as written only the first level is reset. */
  function RestartLevels(levels: seq<Levels.Level>, rules: Rules): (r: seq<Levels.Level>)
    requires 0 < |levels|
    ensures |r| == |levels| && r[0] == Levels.Reset(levels[0])
    ensures rules == AsWritten ==> forall i :: 1 <= i < |r| ==> r[i] == levels[i]
    ensures rules == Corrected ==> forall i :: 0 <= i < |r| ==> r[i].stage == 0
  {
    if rules == AsWritten then levels[0 := Levels.Reset(levels[0])] else ResetAll(levels)
  }

  /** The GameOver and Winner cases once a button is pressed: a fresh game
      from the first level with three lives and no score. Arrows in flight
      and the shot timestamp are kept. */
  function Restarted(g: Game, now: int, scaleOf: Enemies.Scaler, rules: Rules): (r: Game)
    requires 0 < |g.levels|
    ensures r.state == NextStage && r.levelIndex == 0 && r.score == 0 && r.lives == StartingLives
    ensures r.hero == Heroes.Center(g.hero, g.width, g.height)
    ensures r.levels == RestartLevels(g.levels, rules) && r.levels[0].stage == 0
    ensures r == g.(enemies := r.enemies, nextId := r.nextId, hero := r.hero, score := 0, lives := StartingLives,
                    state := NextStage, levelIndex := 0, levels := r.levels)
    ensures r.enemies == Levels.Spawned(r.levels[0], g.width, g.height, g.nextId, now, scaleOf)
    ensures Consistent(g) ==> Consistent(r)
  {
    var levels := RestartLevels(g.levels, rules);
    var p := Levels.PopulateEnemies(levels[0], g.width, g.height, map[], g.nextId, now, scaleOf);
    Levels.PopulateEmpty(levels[0], g.width, g.height, g.nextId, now, scaleOf);
    g.(enemies := p.enemies, nextId := p.nextId, hero := Heroes.Center(g.hero, g.width, g.height),
       score := 0, lives := StartingLives, state := NextStage, levelIndex := 0, levels := levels)
  }

  /** A restart indexes the first level, which panics when there is none. */
  function Restart(g: Game, now: int, scaleOf: Enemies.Scaler, rules: Rules): (r: Tick)
    ensures r.IndexOutOfRange? <==> |g.levels| == 0
    ensures r.Ticked? ==> r.game == Restarted(g, now, scaleOf, rules)
  {
    if |g.levels| == 0 then IndexOutOfRange else Ticked(Restarted(g, now, scaleOf, rules))
  }

  /** The NoClicker case once a device is connected. As written the stage
      screen is shown whatever happened before; corrected, a game that has
      no level left to play or no life left to play it with goes back to its
      end screen. */
  function Reconnect(g: Game, rules: Rules): (r: Game)
    ensures r == g.(state := r.state)
    ensures rules == AsWritten ==> r.state == NextStage
    ensures rules == Corrected ==>
      (r.state == NextStage <==> 0 <= g.levelIndex < |g.levels| && 0 < g.lives)
    ensures rules == Corrected && !(0 <= g.levelIndex < |g.levels|) ==> r.state == Winner
    ensures rules == Corrected && 0 <= g.levelIndex < |g.levels| && g.lives <= 0 ==> r.state == GameOver
  {
    if rules == AsWritten then g.(state := NextStage)
    else if !(0 <= g.levelIndex < |g.levels|) then g.(state := Winner)
    else if g.lives <= 0 then g.(state := GameOver)
    else g.(state := NextStage)
  }

  /** `Update`: one tick of the controller. With no device connected the
      game shows the plug-in screen and nothing else happens. */
  function UpdateWith(g: Game, input: Input, scaleOf: Enemies.Scaler, rules: Rules): (r: Tick)
    ensures |input.pads| == 0 ==> r == Ticked(g.(state := NoClicker))
    ensures r.Ticked? ==> |r.game.levels| == |g.levels| && r.game.width == g.width && r.game.height == g.height
    ensures r.Ticked? && Consistent(g) ==> Consistent(r.game)
    ensures r.Ticked? && rules == AsWritten && g.lastShotMilli == 0 ==> r.game.lastShotMilli == 0
  {
    var g0 := if |input.pads| == 0 then g.(state := NoClicker) else g;
    match g0.state
    case NoClicker => Ticked(if 0 < |input.pads| then Reconnect(g0, rules) else g0)
    case NextStage =>
      Ticked(if AnyPressed(input.pads) then g0.(hero := Heroes.Center(g0.hero, g0.width, g0.height), state := Running)
             else g0)
    case Running => RunningTick(g0, input, scaleOf, rules)
    case LostLife => Ticked(if AnyPressed(input.pads) then Retry(g0) else g0)
    case GameOver => if AnyPressed(input.pads) then Restart(g0, input.now, scaleOf, rules) else Ticked(g0)
    case Winner => if AnyPressed(input.pads) then Restart(g0, input.now, scaleOf, rules) else Ticked(g0)
  }

  /** `initialize`: a 1000 by 1000 window, two 40-enemy levels, three lives,
      and the first wave of the first level on the field. */
  function Initialize(assets: Assets, now: int, scaleOf: Enemies.Scaler): (g: Game)
    ensures g.width == ScreenSize && g.height == ScreenSize
    ensures g.state == NextStage && g.levelIndex == 0 && g.lives == StartingLives && g.score == 0
    ensures g.lastShotMilli == 0 && g.arrows == map[]
    ensures |g.levels| == 2 && g.levels[0].name == FirstLevelName && g.levels[1].name == SecondLevelName
    ensures g.levels[0].stage == 0 && g.levels[0].numEnemies == EnemiesPerLevel
    ensures g.levels[1].stage == 0 && g.levels[1].numEnemies == EnemiesPerLevel
    ensures |g.enemies| == EnemiesPerLevel
    ensures forall k :: k in g.enemies ==> g.enemies[k].hitpoints == Enemies.HitpointIncrement && !g.enemies[k].boss
    ensures Consistent(g)
  {
    var levels := [Levels.NewLevel(FirstLevelName, assets.goblin, assets.grass, EnemiesPerLevel),
                   Levels.NewLevel(SecondLevelName, assets.skeleton, assets.stone, EnemiesPerLevel)];
    var p := Levels.PopulateEnemies(levels[0], ScreenSize, ScreenSize, map[], 0, now, scaleOf);
    Levels.FortyAtStageZero(levels[0], ScreenSize, ScreenSize, 0, now, scaleOf);
    Game(ScreenSize, ScreenSize, NextStage, Heroes.NewHero(ScreenSize, ScreenSize, assets.hero), 0, levels,
         p.enemies, map[], 0, 0, StartingLives, p.nextId, assets.arrow)
  }

  // ------------------------------------------------------- the state machine

  /** Successive ticks; a panic ends the run. */
  function Run(g: Game, inputs: seq<Input>, scaleOf: Enemies.Scaler, rules: Rules): Tick
    decreases |inputs|
  {
    if |inputs| == 0 then Ticked(g)
    else
      match UpdateWith(g, inputs[0], scaleOf, rules)
      case IndexOutOfRange => IndexOutOfRange
      case Ticked(next) => Run(next, inputs[1..], scaleOf, rules)
  }

  /** The plug-in screen waits for a device; as written, a device brings up
      the stage screen. */
  lemma DeviceBringsUpStage(g: Game, input: Input, scaleOf: Enemies.Scaler)
    requires g.state == NoClicker && 0 < |input.pads|
    ensures UpdateWith(g, input, scaleOf, AsWritten) == Ticked(g.(state := NextStage))
  {
  }

  /** The stage screen waits for a button; a press centres the hero and
      starts play. */
  lemma PressStartsStage(g: Game, input: Input, scaleOf: Enemies.Scaler, rules: Rules)
    requires g.state == NextStage && 0 < |input.pads|
    ensures AnyPressed(input.pads) ==>
      UpdateWith(g, input, scaleOf, rules)
      == Ticked(g.(hero := Heroes.Center(g.hero, g.width, g.height), state := Running))
    ensures !AnyPressed(input.pads) ==> UpdateWith(g, input, scaleOf, rules) == Ticked(g)
  {
  }

  /** During play the hero loses exactly one life on a tick where an Alive
      enemy overlaps it after it moved, and none otherwise; losing the last
      life ends the game. The wave check never hides the loss. */
  lemma LivesAreCountedOnce(g: Game, input: Input, scaleOf: Enemies.Scaler, rules: Rules)
    requires g.state == Running && 0 < |input.pads|
    ensures var r := UpdateWith(g, input, scaleOf, rules);
      r.Ticked? ==> r.game.lives == g.lives - (if Collides(Moved(g, input), scaleOf) then 1 else 0)
    ensures Collides(Moved(g, input), scaleOf) ==>
      && UpdateWith(g, input, scaleOf, rules).Ticked?
      && UpdateWith(g, input, scaleOf, rules).game.state == (if g.lives == 1 then GameOver else LostLife)
  {
    if Collides(Moved(g, input), scaleOf) {
      StruckHeroKeepsItsAttacker(g, input, scaleOf, rules);
    }
  }

  /** A Running tick that leaves the field empty ends in the wave check. */
  lemma EmptyFieldTick(g: Game, input: Input, scaleOf: Enemies.Scaler, rules: Rules)
    requires g.state == Running && 0 < |input.pads|
    requires |Combat(g, input, scaleOf, rules).enemies| == 0
    ensures UpdateWith(g, input, scaleOf, rules) == WaveCleared(Combat(g, input, scaleOf, rules), input.now, scaleOf)
  {
    assert UpdateWith(g, input, scaleOf, rules) == RunningTick(g, input, scaleOf, rules);
  }

  /** A cleared wave of a level with stages left moves that level to its
      next stage, populates the new wave and shows the stage screen. */
  lemma ClearedWaveNextStage(g: Game, input: Input, scaleOf: Enemies.Scaler, rules: Rules)
    requires g.state == Running && 0 < |input.pads| && Consistent(g)
    requires |Combat(g, input, scaleOf, rules).enemies| == 0
    requires 0 <= g.levelIndex < |g.levels| && !Levels.Complete(g.levels[g.levelIndex])
    ensures var r := UpdateWith(g, input, scaleOf, rules);
      && r.Ticked? && r.game.state == NextStage && r.game.levelIndex == g.levelIndex
      && r.game.levels[g.levelIndex] == Levels.NextStage(g.levels[g.levelIndex])
      && |r.game.enemies| == Levels.SpawnCount(Levels.NextStage(g.levels[g.levelIndex]))
  {
    var c := Combat(g, input, scaleOf, rules);
    EmptyFieldTick(g, input, scaleOf, rules);
    var n := NextWave(c, input.now, scaleOf);
    assert UpdateWith(g, input, scaleOf, rules) == Ticked(n);
    assert c.enemies == map[];
    assert Fresh(c.enemies, c.nextId);
  }

  /** A cleared boss wave hands over to the next level's first wave, or wins
      the game after the last level; a win leaves the level index one past
      the end and the field empty. */
  lemma ClearedBossNextLevel(g: Game, input: Input, scaleOf: Enemies.Scaler, rules: Rules)
    requires g.state == Running && 0 < |input.pads| && Consistent(g)
    requires |Combat(g, input, scaleOf, rules).enemies| == 0
    requires 0 <= g.levelIndex < |g.levels| && Levels.Complete(g.levels[g.levelIndex])
    ensures var r := UpdateWith(g, input, scaleOf, rules);
      && r.Ticked? && r.game.levelIndex == g.levelIndex + 1 && r.game.levels == g.levels
      && (r.game.state == Winner <==> g.levelIndex + 1 == |g.levels|)
      && (r.game.state == Winner ==> r.game.enemies == map[])
      && (r.game.state != Winner ==>
            r.game.state == NextStage && |r.game.enemies| == Levels.SpawnCount(g.levels[g.levelIndex + 1]))
  {
    var c := Combat(g, input, scaleOf, rules);
    BossFieldTick(g, input, scaleOf, rules);
    NextLevelFromEmptyField(c, input.now, scaleOf);
  }

  /** A Running tick that clears a finished level's field hands over to
      the next level. */
  lemma BossFieldTick(g: Game, input: Input, scaleOf: Enemies.Scaler, rules: Rules)
    requires g.state == Running && 0 < |input.pads|
    requires |Combat(g, input, scaleOf, rules).enemies| == 0
    requires 0 <= g.levelIndex < |g.levels| && Levels.Complete(g.levels[g.levelIndex])
    ensures var c := Combat(g, input, scaleOf, rules);
      && c.levels == g.levels && c.levelIndex == g.levelIndex && c.enemies == map[]
      && UpdateWith(g, input, scaleOf, rules) == Ticked(NextLevel(c, input.now, scaleOf))
  {
    EmptyFieldTick(g, input, scaleOf, rules);
  }

  /** The hand-over to the next level on an empty field. */
  lemma NextLevelFromEmptyField(c: Game, now: int, scaleOf: Enemies.Scaler)
    requires 0 <= c.levelIndex < |c.levels| && Levels.Complete(c.levels[c.levelIndex])
    requires c.enemies == map[]
    ensures var n := NextLevel(c, now, scaleOf);
      && n.levelIndex == c.levelIndex + 1 && n.levels == c.levels
      && (n.state == Winner <==> c.levelIndex + 1 == |c.levels|)
      && (n.state == Winner ==> n.enemies == map[])
      && (n.state != Winner ==>
            n.state == NextStage && |n.enemies| == Levels.SpawnCount(c.levels[c.levelIndex + 1]))
  {
    assert Fresh(c.enemies, c.nextId);
  }

  /** After a lost life a press resumes play with the survivors rewound. */
  lemma PressRetries(g: Game, input: Input, scaleOf: Enemies.Scaler, rules: Rules)
    requires g.state == LostLife && 0 < |input.pads| && AnyPressed(input.pads)
    ensures UpdateWith(g, input, scaleOf, rules) == Ticked(Retry(g))
  {
  }

  /** On the end screens a press starts a new game. */
  lemma PressRestarts(g: Game, input: Input, scaleOf: Enemies.Scaler, rules: Rules)
    requires (g.state == GameOver || g.state == Winner) && 0 < |input.pads| && AnyPressed(input.pads)
    requires 0 < |g.levels|
    ensures UpdateWith(g, input, scaleOf, rules) == Ticked(Restarted(g, input.now, scaleOf, rules))
  {
  }

  // ------------------------------------------------------------ soundness

  /** The state the corrected controller keeps: there is a first level, the
      level index never passes one beyond the last level and only the win
      (and the plug-in screen after it) sees it there, lives never go
      negative, and play happens only with a life in hand. */
  predicate Sound(g: Game) {
    && 0 < |g.levels| && 0 <= g.levelIndex <= |g.levels| && 0 <= g.lives
    && (g.levelIndex == |g.levels| ==> g.state == Winner || g.state == NoClicker)
    && (g.state == Running || g.state == NextStage || g.state == LostLife ==> 0 < g.lives)
  }

  /** The corrected controller never indexes past its levels, and keeps
      `Sound` from one tick to the next. */
  lemma CorrectedTickIsSound(g: Game, input: Input, scaleOf: Enemies.Scaler)
    requires Sound(g)
    ensures UpdateWith(g, input, scaleOf, Corrected).Ticked?
    ensures Sound(UpdateWith(g, input, scaleOf, Corrected).game)
  {
    if 0 < |input.pads| && g.state == Running {
      PlayIsSound(g, input, scaleOf);
    }
  }

  /** A Running tick of a sound game: the level index is in range, so the
      wave check cannot panic, and a lost life either ends the game or
      leaves at least one. */
  lemma PlayIsSound(g: Game, input: Input, scaleOf: Enemies.Scaler)
    requires Sound(g) && g.state == Running && 0 < |input.pads|
    ensures UpdateWith(g, input, scaleOf, Corrected).Ticked?
    ensures Sound(UpdateWith(g, input, scaleOf, Corrected).game)
  {
    LivesAreCountedOnce(g, input, scaleOf, Corrected);
    var r := RunningTick(g, input, scaleOf, Corrected);
    assert UpdateWith(g, input, scaleOf, Corrected) == r;
    var c := Combat(g, input, scaleOf, Corrected);
    assert c.levelIndex == g.levelIndex && c.levels == g.levels;
    if |c.enemies| == 0 {
      assert r == WaveCleared(c, input.now, scaleOf);
      if Levels.Complete(c.levels[c.levelIndex]) {
        assert r.game == NextLevel(c, input.now, scaleOf);
      }
    }
  }

  /** However long it runs, the corrected controller never panics. */
  lemma {:induction false} CorrectedRunNeverPanics(g: Game, inputs: seq<Input>, scaleOf: Enemies.Scaler)
    requires Sound(g)
    ensures Run(g, inputs, scaleOf, Corrected).Ticked?
    ensures Sound(Run(g, inputs, scaleOf, Corrected).game)
    decreases |inputs|
  {
    if 0 < |inputs| {
      CorrectedTickIsSound(g, inputs[0], scaleOf);
      CorrectedRunNeverPanics(UpdateWith(g, inputs[0], scaleOf, Corrected).game, inputs[1..], scaleOf);
    }
  }

  /** The game starts sound. */
  lemma InitialGameIsSound(assets: Assets, now: int, scaleOf: Enemies.Scaler)
    ensures Sound(Initialize(assets, now, scaleOf))
  {
  }

  /** Every tick keeps identifiers fresh and every enemy healthy. */
  lemma {:induction false} RunKeepsConsistency(g: Game, inputs: seq<Input>, scaleOf: Enemies.Scaler, rules: Rules)
    requires Consistent(g)
    ensures Run(g, inputs, scaleOf, rules).Ticked? ==> Consistent(Run(g, inputs, scaleOf, rules).game)
    decreases |inputs|
  {
    if 0 < |inputs| {
      var r := UpdateWith(g, inputs[0], scaleOf, rules);
      if r.Ticked? {
        RunKeepsConsistency(r.game, inputs[1..], scaleOf, rules);
      }
    }
  }

  // ------------------------------------------------------------- findings

  /** One tick of a run that does not panic. */
  lemma RunStep(g: Game, inputs: seq<Input>, scaleOf: Enemies.Scaler, rules: Rules)
    requires 0 < |inputs| && UpdateWith(g, inputs[0], scaleOf, rules).Ticked?
    ensures Run(g, inputs, scaleOf, rules) == Run(UpdateWith(g, inputs[0], scaleOf, rules).game, inputs[1..], scaleOf, rules)
  {
  }

  /** As written, after a win (the level index one past the last level and
      the field empty, as `ClearedBossNextLevel` leaves it) unplugging the
      device and plugging it back in puts the game at NextStage with the
      index still past the end. In the program the NextStage screen's
      drawing (main.go:281-282) then indexes `levels` out of range on the
      very next frame. Drawing is not modelled; this lemma follows the
      update path alone: pressing a button starts play again, and the next
      tick indexes `levels` out of range. */
  lemma ReplugAfterWinPanics(g: Game, unplug: Input, replug: Input, press: Input, play: Input,
                             scaleOf: Enemies.Scaler)
    requires g.state == Winner && g.levelIndex == |g.levels| && g.enemies == map[]
    requires |unplug.pads| == 0 && 0 < |replug.pads|
    requires 0 < |press.pads| && AnyPressed(press.pads) && 0 < |play.pads|
    ensures Run(g, [unplug, replug, press, play], scaleOf, AsWritten) == IndexOutOfRange
  {
    var unplugged := g.(state := NoClicker);
    var replugged := unplugged.(state := NextStage);
    var running := replugged.(hero := Heroes.Center(replugged.hero, replugged.width, replugged.height),
                              state := Running);
    assert UpdateWith(running, play, scaleOf, AsWritten) == IndexOutOfRange by {
      assert |Combat(running, play, scaleOf, AsWritten).enemies| == 0;
    }
    assert Run(running, [play], scaleOf, AsWritten) == IndexOutOfRange;
    PressStartsStage(replugged, press, scaleOf, AsWritten);
    RunStep(replugged, [press, play], scaleOf, AsWritten);
    assert [press, play][1..] == [play];
    DeviceBringsUpStage(unplugged, replug, scaleOf);
    RunStep(unplugged, [replug, press, play], scaleOf, AsWritten);
    assert [replug, press, play][1..] == [press, play];
    RunStep(g, [unplug, replug, press, play], scaleOf, AsWritten);
    assert [unplug, replug, press, play][1..] == [replug, press, play];
  }

  /** As written, losing the last life, unplugging and replugging the device
      and pressing a button resumes play with no lives; the next collision
      leaves -1 lives and the retry screen instead of the end of the game. */
  lemma ReplugAfterGameOverRevives(g: Game, unplug: Input, replug: Input, press: Input, hit: Input,
                                   scaleOf: Enemies.Scaler)
    requires g.state == GameOver && g.lives == 0
    requires |unplug.pads| == 0 && 0 < |replug.pads| && 0 < |press.pads| && AnyPressed(press.pads)
    requires 0 < |hit.pads|
    ensures var resumed := Run(g, [unplug, replug, press], scaleOf, AsWritten);
      && resumed.Ticked? && resumed.game.state == Running && resumed.game.lives == 0
      && (Collides(Moved(resumed.game, hit), scaleOf) ==>
            UpdateWith(resumed.game, hit, scaleOf, AsWritten).Ticked?
            && UpdateWith(resumed.game, hit, scaleOf, AsWritten).game.lives == -1
            && UpdateWith(resumed.game, hit, scaleOf, AsWritten).game.state == LostLife)
  {
    var unplugged := g.(state := NoClicker);
    var replugged := unplugged.(state := NextStage);
    var running := replugged.(hero := Heroes.Center(replugged.hero, replugged.width, replugged.height),
                              state := Running);
    assert Run(running, [], scaleOf, AsWritten) == Ticked(running);
    PressStartsStage(replugged, press, scaleOf, AsWritten);
    RunStep(replugged, [press], scaleOf, AsWritten);
    assert [press][1..] == [];
    DeviceBringsUpStage(unplugged, replug, scaleOf);
    RunStep(unplugged, [replug, press], scaleOf, AsWritten);
    assert [replug, press][1..] == [press];
    RunStep(g, [unplug, replug, press], scaleOf, AsWritten);
    assert [unplug, replug, press][1..] == [replug, press];
    LivesAreCountedOnce(running, hit, scaleOf, AsWritten);
  }

  /** As written, a restart resets only the first level: every later level
      keeps the stage it reached, so a level finished before the restart
      offers only its boss when play reaches it again. */
  lemma RestartKeepsLaterStages(g: Game, input: Input, scaleOf: Enemies.Scaler)
    requires (g.state == GameOver || g.state == Winner) && 0 < |input.pads| && AnyPressed(input.pads)
    requires 1 < |g.levels| && Levels.Complete(g.levels[1])
    ensures var r := UpdateWith(g, input, scaleOf, AsWritten);
      && r.Ticked? && r.game.levels[1] == g.levels[1]
      && Levels.SpawnCount(r.game.levels[1]) == 1
  {
    PressRestarts(g, input, scaleOf, AsWritten);
  }

  /** Corrected, a restart puts every level back at its first stage. */
  lemma RestartResetsEveryLevel(g: Game, input: Input, scaleOf: Enemies.Scaler)
    requires (g.state == GameOver || g.state == Winner) && 0 < |input.pads| && AnyPressed(input.pads)
    requires 0 < |g.levels|
    ensures var r := UpdateWith(g, input, scaleOf, Corrected);
      && r.Ticked? && |r.game.levels| == |g.levels|
      && forall i :: 0 <= i < |g.levels| ==> r.game.levels[i] == Levels.Reset(g.levels[i])
  {
    PressRestarts(g, input, scaleOf, Corrected);
  }
}

=== FILE: goint.dfy ===
/** Go's integer semantics where they differ from Dafny's: integer division
    and remainder truncate toward zero, and converting a float to an int
    drops the fraction. The game's arithmetic is written with these. */
module GoInt {

  function Abs(x: int): nat {
    if x < 0 then -x else x
  }

  /** Go's `a / b` on `int`: the quotient rounded toward zero. */
  function Quot(a: int, b: int): (q: int)
    requires b != 0
    ensures 0 <= a && 0 < b ==> q == a / b
    ensures a < 0 && 0 < b ==> q == -((-a) / b)
  {
    if (a < 0) == (b < 0) then Abs(a) / Abs(b) else -(Abs(a) / Abs(b))
  }

  /** Go's `a % b` on `int`: the remainder carries the sign of `a`. */
  function Rem(a: int, b: int): (r: int)
    requires b != 0
    ensures 0 <= a ==> r == a % Abs(b)
    ensures Abs(r) < Abs(b)
    ensures a < 0 ==> r <= 0
    ensures a == Quot(a, b) * b + r
  {
    if a < 0 then -(Abs(a) % Abs(b)) else a % Abs(b)
  }

  /** Go's `int(f)` for a float `f`: the fraction is dropped, rounding toward zero. */
  function Trunc(f: real): (n: int)
    ensures 0.0 <= f ==> n as real <= f < n as real + 1.0
    ensures f < 0.0 ==> n as real - 1.0 < f <= n as real
  {
    if f >= 0.0 then f.Floor else -((-f).Floor)
  }
}

=== FILE: heroes.dfy ===
/** The player (`sprites/hero.go`). Each tick every connected device moves
    the hero by its left-stick displacement, and after each device the
    position is clamped so that half the hero's image stays on screen. The
    stick reading, rounded to one decimal and scaled by 10, is supplied as an
    integer step per device. */
module Heroes {
  import opened GoInt
  import opened Rects
  import opened Sprites
  import Enemies

  datatype Hero = Hero(x: int, y: int, imageWidth: int, image: Image)

  function Clamp(v: int, lo: int, hi: int): (c: int)
    ensures lo <= hi ==> lo <= c <= hi
    ensures lo <= v <= hi ==> c == v
  {
    if v < lo then lo else if v > hi then hi else v
  }

  /** The smallest and largest x the clamp allows. */
  function XLow(h: Hero): int { Quot(h.imageWidth, 2) }
  function XHigh(h: Hero, width: int): int { width - Quot(h.imageWidth, 2) }

  /** The smallest and largest y the clamp allows. */
  function YLow(h: Hero): int { h.image.height / 2 }
  function YHigh(h: Hero, height: int): int { height - h.image.height / 2 }

  /** One device's displacement followed by the clamp on each axis. */
  function Step(h: Hero, dx: int, dy: int, height: int, width: int): (r: Hero)
    ensures XLow(h) <= XHigh(h, width) ==> XLow(h) <= r.x <= XHigh(h, width)
    ensures YLow(h) <= YHigh(h, height) ==> YLow(h) <= r.y <= YHigh(h, height)
    ensures XLow(h) <= h.x + dx <= XHigh(h, width) ==> r.x == h.x + dx
    ensures YLow(h) <= h.y + dy <= YHigh(h, height) ==> r.y == h.y + dy
    ensures r == h.(x := r.x, y := r.y)
  {
    h.(x := Clamp(h.x + dx, XLow(h), XHigh(h, width)),
       y := Clamp(h.y + dy, YLow(h), YHigh(h, height)))
  }

  /** One tick of movement: the steps of the connected devices, in the
      order the game visits them. */
  function Update(h: Hero, steps: seq<(int, int)>, height: int, width: int): (r: Hero)
    ensures |steps| == 0 ==> r == h
    ensures r.imageWidth == h.imageWidth && r.image == h.image
    ensures 0 < |steps| && XLow(h) <= XHigh(h, width) ==> XLow(h) <= r.x <= XHigh(h, width)
    ensures 0 < |steps| && YLow(h) <= YHigh(h, height) ==> YLow(h) <= r.y <= YHigh(h, height)
    decreases |steps|
  {
    if |steps| == 0 then h
    else Update(Step(h, steps[0].0, steps[0].1, height, width), steps[1..], height, width)
  }

  /** Sticks at rest leave a hero that is already on screen where it is. */
  lemma {:induction false} RestingSticksKeepPosition(h: Hero, steps: seq<(int, int)>, height: int, width: int)
    requires XLow(h) <= h.x <= XHigh(h, width) && YLow(h) <= h.y <= YHigh(h, height)
    requires forall i :: 0 <= i < |steps| ==> steps[i] == (0, 0)
    ensures Update(h, steps, height, width) == h
    decreases |steps|
  {
    if |steps| > 0 {
      assert Step(h, 0, 0, height, width) == h;
      RestingSticksKeepPosition(h, steps[1..], height, width);
    }
  }

  /** The total horizontal and vertical displacement of a run of steps. */
  function SumX(steps: seq<(int, int)>): int
    decreases |steps|
  {
    if |steps| == 0 then 0 else steps[0].0 + SumX(steps[1..])
  }

  function SumY(steps: seq<(int, int)>): int
    decreases |steps|
  {
    if |steps| == 0 then 0 else steps[0].1 + SumY(steps[1..])
  }

  /** When no device's step pushes the hero past the clamp, the hero moves
      by exactly the sum of the steps on each axis. */
  lemma {:induction false} FreeStepsAdd(h: Hero, steps: seq<(int, int)>, height: int, width: int)
    requires forall i :: 0 <= i <= |steps| ==> XLow(h) <= h.x + SumX(steps[..i]) <= XHigh(h, width)
    requires forall i :: 0 <= i <= |steps| ==> YLow(h) <= h.y + SumY(steps[..i]) <= YHigh(h, height)
    ensures Update(h, steps, height, width) == h.(x := h.x + SumX(steps), y := h.y + SumY(steps))
    decreases |steps|
  {
    if |steps| == 0 {
      assert steps[..0] == [];
    } else {
      var next := Step(h, steps[0].0, steps[0].1, height, width);
      assert steps[..1][1..] == [];
      assert SumX(steps[..1]) == steps[0].0 + SumX([]);
      assert SumY(steps[..1]) == steps[0].1 + SumY([]);
      assert next.x == h.x + steps[0].0 by {
        assert XLow(h) <= h.x + SumX(steps[..1]) <= XHigh(h, width);
      }
      assert next.y == h.y + steps[0].1 by {
        assert YLow(h) <= h.y + SumY(steps[..1]) <= YHigh(h, height);
      }
      var rest := steps[1..];
      forall i | 0 <= i <= |rest|
        ensures XLow(next) <= next.x + SumX(rest[..i]) <= XHigh(next, width)
        ensures YLow(next) <= next.y + SumY(rest[..i]) <= YHigh(next, height)
      {
        assert steps[..i + 1][1..] == rest[..i];
        assert XLow(h) <= h.x + SumX(steps[..i + 1]) <= XHigh(h, width);
        assert YLow(h) <= h.y + SumY(steps[..i + 1]) <= YHigh(h, height);
      }
      FreeStepsAdd(next, rest, height, width);
    }
  }

  /** The hero's collision box: its position as the top-left corner, the
      enemies' frame width (not the hero's own) and the hero image height. */
  function Bounds(h: Hero): (b: Rect)
    ensures b.min == Point(h.x, h.y)
    ensures b.max.x - b.min.x == Enemies.ImageWidth
    ensures b.max.y - b.min.y == h.image.height
  {
    Rect(Point(h.x, h.y), Point(h.x + Enemies.ImageWidth, h.y + h.image.height))
  }

  /** Puts the hero mid-screen, less half its frame width and image height;
      the result does not depend on where the hero was. */
  function Center(h: Hero, width: int, height: int): (r: Hero)
    ensures r.x + Quot(h.imageWidth, 2) == Quot(width, 2)
    ensures r.y + h.image.height / 2 == Quot(height, 2)
    ensures r == h.(x := r.x, y := r.y)
  {
    h.(x := Quot(width, 2) - Quot(h.imageWidth, 2), y := Quot(height, 2) - h.image.height / 2)
  }

  /** Centring forgets the old position, so centring twice is centring once. */
  lemma CenterIgnoresPosition(h: Hero, x: int, y: int, width: int, height: int)
    ensures Center(h.(x := x, y := y), width, height) == Center(h, width, height)
    ensures Center(Center(h, width, height), width, height) == Center(h, width, height)
  {
  }

  /** The hero at the start of the game: one third of its three-frame image
      wide, and centred. */
  function NewHero(width: int, height: int, image: Image): (h: Hero)
    ensures h.imageWidth == image.width / 3 && h.image == image
    ensures Center(h, width, height) == h
  {
    Center(Hero(0, 0, image.width / 3, image), width, height)
  }
}

=== FILE: ids.dfy ===
/** Entity handles and iteration orders. The game keys its enemies and
    arrows by freshly generated identifiers and walks those maps in Go's
    unspecified order. Here identifiers are drawn from a counter, and an
    iteration order is any sequence that lists every key exactly once. */
module Ids {

  /** The identifiers `from, from + 1, ..., from + count - 1`. */
  function IdRange(from: nat, count: nat): (r: set<nat>)
    ensures forall k :: k in r <==> from <= k < from + count
    decreases count
  {
    if count == 0 then {} else IdRange(from, count - 1) + {from + count - 1}
  }

  lemma {:induction false} IdRangeSize(from: nat, count: nat)
    ensures |IdRange(from, count)| == count
    decreases count
  {
    if count > 0 {
      var below := IdRange(from, count - 1);
      IdRangeSize(from, count - 1);
      assert from + count - 1 !in below;
      assert IdRange(from, count) == below + {from + count - 1};
      assert |below + {from + count - 1}| == |below| + 1;
    }
  }

  lemma IdRangeSplit(from: nat, n: nat, m: nat)
    ensures IdRange(from, n + m) == IdRange(from, n) + IdRange(from + n, m)
  {
  }

  /** Every key of `m` lies below the next identifier to be handed out. */
  predicate Fresh<V>(m: map<nat, V>, next: nat) {
    forall k :: k in m ==> k < next
  }

  predicate Distinct(order: seq<nat>) {
    forall i, j :: 0 <= i < j < |order| ==> order[i] != order[j]
  }

  /** `order` visits every key of `keys` exactly once, and nothing else. */
  predicate IsEnumeration(order: seq<nat>, keys: set<nat>) {
    && Distinct(order)
    && (forall k :: k in keys ==> k in order)
    && (forall i :: 0 <= i < |order| ==> order[i] in keys)
  }

  lemma {:induction false} Minimum(s: set<nat>) returns (m: nat)
    requires s != {}
    ensures m in s && forall y :: y in s ==> m <= y
    decreases |s|
  {
    var x :| x in s;
    if s == {x} {
      m := x;
    } else {
      var rest := Minimum(s - {x});
      m := if x < rest then x else rest;
      forall y | y in s
        ensures m <= y
      {
        if y != x {
          assert y in s - {x};
        }
      }
    }
  }

  lemma MinimumExists(s: set<nat>)
    requires s != {}
    ensures exists m :: m in s && forall y :: y in s ==> m <= y
  {
    var m := Minimum(s);
  }

  function SetMin(s: set<nat>): (m: nat)
    requires s != {}
    ensures m in s && forall y :: y in s ==> m <= y
  {
    MinimumExists(s);
    var m :| m in s && forall y :: y in s ==> m <= y;
    m
  }

  /** The keys in ascending order. */
  function Enumerate(keys: set<nat>): (order: seq<nat>)
    ensures forall k :: k in keys <==> k in order
    ensures forall i, j :: 0 <= i < j < |order| ==> order[i] < order[j]
    decreases |keys|
  {
    if keys == {} then []
    else
      var m := SetMin(keys);
      var rest := Enumerate(keys - {m});
      assert forall i :: 0 <= i < |rest| ==> rest[i] in keys - {m};
      assert forall k :: k in rest <==> k in keys - {m};
      [m] + rest
  }

  /** The order the game walks a map in: the order the host reports when it
      lists each key once, otherwise ascending. Either is an order Go may use. */
  function IterationOrder(hint: seq<nat>, keys: set<nat>): (order: seq<nat>)
    ensures IsEnumeration(order, keys)
    ensures IsEnumeration(hint, keys) ==> order == hint
  {
    if IsEnumeration(hint, keys) then hint else AscendingIsEnumeration(keys); Enumerate(keys)
  }

  lemma AscendingIsEnumeration(keys: set<nat>)
    ensures IsEnumeration(Enumerate(keys), keys)
  {
  }
}

=== FILE: levels.dfy ===
/** A wave definition (`level/level.go`): a name, an enemy image, a base
    enemy count and a stage counter. While stages remain, populating a level
    lines enemies up along the four screen edges with per-index hitpoints
    that vary more as stages advance; once the stages are used up it spawns
    a single boss. Fresh identifiers come from a counter. */
module Levels {
  import opened GoInt
  import opened Sprites
  import opened Enemies
  import opened Ids

  /** Stages per level before the boss. */
  const NumStages := 1

  const BossHitpoints := 1000

  datatype Level = Level(name: string, enemyImage: Image, numEnemies: int, stage: int, bgImage: Image)

  function NewLevel(name: string, enemyImage: Image, bgImage: Image, numEnemies: int): (l: Level)
    ensures l.stage == 0 && !Complete(l)
    ensures l.name == name && l.enemyImage == enemyImage && l.bgImage == bgImage
    ensures l.numEnemies == numEnemies
  {
    Level(name, enemyImage, numEnemies, 0, bgImage)
  }

  /** The level's stages are used up: the boss wave has been reached. */
  predicate Complete(l: Level) {
    l.stage == NumStages
  }

  function NextStage(l: Level): (r: Level)
    ensures r.stage == l.stage + 1
    ensures r.(stage := l.stage) == l
  {
    l.(stage := l.stage + 1)
  }

  function Reset(l: Level): (r: Level)
    ensures r.stage == 0
    ensures r.(stage := l.stage) == l
  {
    l.(stage := 0)
  }

  /** `NextStage` applied `n` times. */
  function Advance(l: Level, n: nat): (r: Level)
    ensures r.stage == l.stage + n
    ensures r.(stage := l.stage) == l
    decreases n
  {
    if n == 0 then l else NextStage(Advance(l, n - 1))
  }

  /** After a reset a level is complete after exactly `NumStages` stage
      advances, no sooner and no later. */
  lemma CompleteAfterExactlyNumStages(l: Level, n: nat)
    ensures Complete(Advance(Reset(l), n)) <==> n == NumStages
  {
  }

  /** How many hitpoint tiers a stage cycles through. */
  function Tiers(stage: int): nat {
    if stage == 0 then 1 else if stage == 1 then 2 else if stage == 2 then 3 else 4
  }

  /** Hitpoints of the `i`-th enemy on an edge: the tier `i mod Tiers(stage)`
      times the increment, so 50 each at stage 0 and up to 200 later. */
  function Hitpoints(l: Level, i: int): (hp: int)
    ensures 0 <= i ==> hp == HitpointIncrement * (1 + i % Tiers(l.stage))
    ensures 0 <= i ==> HitpointIncrement <= hp <= Tiers(l.stage) * HitpointIncrement
    ensures l.stage == 0 ==> hp == HitpointIncrement
  {
    var hp := HitpointIncrement;
    if l.stage == 0 then hp
    else if l.stage == 1 then hp + hp * Rem(i, 2)
    else if l.stage == 2 then hp + hp * Rem(i, 3)
    else hp + hp * Rem(i, 4)
  }

  /** Enemies per edge: the base count divided by four, truncated. */
  function PerSide(l: Level): int {
    Quot(l.numEnemies, 4)
  }

  /** How many enemies one population adds: the boss alone once the stages
      are used up, otherwise the base count rounded down to a multiple of four. */
  function SpawnCount(l: Level): (c: nat)
    ensures Complete(l) ==> c == 1
    ensures !Complete(l) && 0 <= l.numEnemies ==> c % 4 == 0 && c <= l.numEnemies < c + 4
    ensures !Complete(l) && l.numEnemies < 4 ==> c == 0
  {
    if Complete(l) then 1
    else if PerSide(l) <= 0 then 0
    else 4 * PerSide(l)
  }

  /** The requested spawn point of the `n`-th edge enemy: edges in the order
      left, top, right, bottom, and `i = n mod per` steps along the edge. */
  function EdgePoint(l: Level, width: int, height: int, per: int, n: nat): (p: (int, int))
    requires 0 < per
    ensures n / per == 0 ==> p.0 == 0
    ensures n / per == 1 ==> p.1 == 0
    ensures n / per == 2 ==> p.0 == width - l.enemyImage.width / 5
    ensures 3 <= n / per ==> p.1 == height - l.enemyImage.height
    ensures n / per == 0 || n / per == 2 ==>
      p.1 == (n % per) * Quot(height, per) && (0 <= height ==> 0 <= p.1 && p.1 + Quot(height, per) <= height)
    ensures n / per == 1 || 3 <= n / per ==>
      p.0 == (n % per) * Quot(width, per) && (0 <= width ==> 0 <= p.0 && p.0 + Quot(width, per) <= width)
  {
    EvenlySpaced(n % per, per, height);
    EvenlySpaced(n % per, per, width);
    var side := n / per;
    var i := n % per;
    if side == 0 then (0, i * Quot(height, per))
    else if side == 1 then (i * Quot(width, per), 0)
    else if side == 2 then (width - l.enemyImage.width / 5, i * Quot(height, per))
    else (i * Quot(width, per), height - l.enemyImage.height)
  }

  /** The `i`-th of `per` evenly spaced points along an edge of length
      `size` stays on that edge, one spacing short of its far end. */
  lemma EvenlySpaced(i: int, per: int, size: int)
    requires 0 <= i < per
    ensures 0 <= size ==> 0 <= i * Quot(size, per) && i * Quot(size, per) + Quot(size, per) <= size
  {
    if 0 <= size {
      var q := Quot(size, per);
      QuotBelow(size, per);
      ScaleBelow(i, i + 1, q);
      ScaleBelow(i + 1, per, q);
      NextMultiple(i, q);
    }
  }

  /** A non-negative size holds `per` whole spacings of `size / per`. */
  lemma QuotBelow(size: int, per: int)
    requires 0 <= size && 0 < per
    ensures 0 <= Quot(size, per) && per * Quot(size, per) <= size
  {
    assert per * (size / per) + size % per == size;
  }

  /** One more spacing reaches the next multiple. */
  lemma NextMultiple(i: int, q: int)
    ensures i * q + q == (i + 1) * q
  {
  }

  /** Multiplying by a non-negative factor keeps the order. */
  lemma ScaleBelow(a: int, b: int, q: int)
    requires 0 <= a <= b && 0 <= q
    ensures 0 <= a * q <= b * q
  {
  }

  /** The `n`-th enemy of an edge wave, spawned with its top-left corner at
      or above-left of its edge point. */
  function EdgeEnemy(l: Level, width: int, height: int, per: int, n: nat, now: int, scaleOf: Scaler): (e: Enemy)
    requires 0 < per
    ensures e.state == Alive && Healthy(e) && !e.boss
    ensures e.hitpoints == Hitpoints(l, n % per)
    ensures HitpointIncrement <= e.hitpoints <= Tiers(l.stage) * HitpointIncrement
    ensures var p := EdgePoint(l, width, height, per, n);
      && e.startX == e.x && e.startY == e.y
      && (0.0 <= scaleOf(Unplaced(p.0, p.1, e.hitpoints, false, l.enemyImage, now)) ==> e.x <= p.0 && e.y <= p.1)
  {
    var p := EdgePoint(l, width, height, per, n);
    NewEnemy(p.0, p.1, Hitpoints(l, n % per), false, l.enemyImage, now, scaleOf)
  }

  /** The edge wave: `per` enemies on each of the four edges. */
  function EdgeWave(l: Level, width: int, height: int, per: int, nextId: nat, now: int, scaleOf: Scaler): (m: map<nat, Enemy>)
    requires 0 < per
    ensures m.Keys == IdRange(nextId, 4 * per)
    ensures forall k :: k in m ==> m[k] == EdgeEnemy(l, width, height, per, k - nextId, now, scaleOf)
  {
    var ids := IdRange(nextId, 4 * per);
    assert forall k :: k in ids ==> nextId <= k;
    map k | k in ids :: EdgeEnemy(l, width, height, per, k - nextId, now, scaleOf)
  }

  /** The enemies one population adds, keyed from `nextId` upward. */
  function Spawned(l: Level, width: int, height: int, nextId: nat, now: int, scaleOf: Scaler): (m: map<nat, Enemy>)
    ensures m.Keys == IdRange(nextId, SpawnCount(l))
    ensures |m| == SpawnCount(l)
    ensures forall k :: k in m ==> m[k].state == Alive && Healthy(m[k])
    ensures Complete(l) ==> forall k :: k in m ==> m[k].boss && m[k].hitpoints == BossHitpoints
    ensures !Complete(l) ==> forall k :: k in m ==>
      !m[k].boss && HitpointIncrement <= m[k].hitpoints <= Tiers(l.stage) * HitpointIncrement
    ensures !Complete(l) && 0 < PerSide(l) ==> m == EdgeWave(l, width, height, PerSide(l), nextId, now, scaleOf)
  {
    IdRangeSize(nextId, SpawnCount(l));
    if Complete(l) then
      map[nextId := NewEnemy(0, 0, BossHitpoints, true, l.enemyImage, now, scaleOf)]
    else if PerSide(l) <= 0 then
      map[]
    else
      EdgeWaveEnemies(l, width, height, PerSide(l), nextId, now, scaleOf);
      EdgeWave(l, width, height, PerSide(l), nextId, now, scaleOf)
  }

  /** Every enemy of an edge wave is an Alive, healthy non-boss whose
      hitpoints lie within the stage's tiers. */
  lemma EdgeWaveEnemies(l: Level, width: int, height: int, per: int, nextId: nat, now: int, scaleOf: Scaler)
    requires 0 < per
    ensures var m := EdgeWave(l, width, height, per, nextId, now, scaleOf);
      forall k :: k in m ==>
        && m[k].state == Alive && Healthy(m[k]) && !m[k].boss
        && HitpointIncrement <= m[k].hitpoints <= Tiers(l.stage) * HitpointIncrement
  {
    var m := EdgeWave(l, width, height, per, nextId, now, scaleOf);
    forall k | k in m
      ensures m[k].state == Alive && Healthy(m[k]) && !m[k].boss
      ensures HitpointIncrement <= m[k].hitpoints <= Tiers(l.stage) * HitpointIncrement
    {
      EdgeEnemyAt(l, width, height, per, nextId, now, scaleOf, k);
    }
  }

  /** The enemy an edge wave keeps under one identifier. */
  lemma EdgeEnemyAt(l: Level, width: int, height: int, per: int, nextId: nat, now: int, scaleOf: Scaler, k: nat)
    requires 0 < per && k in EdgeWave(l, width, height, per, nextId, now, scaleOf)
    ensures var e := EdgeWave(l, width, height, per, nextId, now, scaleOf)[k];
      && e.state == Alive && Healthy(e) && !e.boss
      && HitpointIncrement <= e.hitpoints <= Tiers(l.stage) * HitpointIncrement
  {
    var e := EdgeEnemy(l, width, height, per, k - nextId, now, scaleOf);
    assert EdgeWave(l, width, height, per, nextId, now, scaleOf)[k] == e;
  }

  datatype Population = Population(enemies: map<nat, Enemy>, nextId: nat)

  /** `PopulateEnemies`: adds one wave to `enemies` and advances the
      identifier counter past it. Existing entries are left alone. */
  function PopulateEnemies(l: Level, width: int, height: int, enemies: map<nat, Enemy>,
                           nextId: nat, now: int, scaleOf: Scaler): (p: Population)
    ensures p.nextId == nextId + SpawnCount(l)
    ensures p.enemies.Keys == enemies.Keys + IdRange(nextId, SpawnCount(l))
    ensures forall k :: k in p.enemies && k !in IdRange(nextId, SpawnCount(l)) ==> p.enemies[k] == enemies[k]
    ensures forall k :: k in IdRange(nextId, SpawnCount(l)) ==> p.enemies[k].state == Alive && Healthy(p.enemies[k])
    ensures Fresh(enemies, nextId) ==> Fresh(p.enemies, p.nextId)
    ensures Fresh(enemies, nextId) ==> |p.enemies| == |enemies| + SpawnCount(l)
    ensures Fresh(enemies, nextId) ==> forall k :: k in enemies ==> p.enemies[k] == enemies[k]
  {
    var added := Spawned(l, width, height, nextId, now, scaleOf);
    DisjointUnionSize(enemies, added);
    Population(enemies + added, nextId + SpawnCount(l))
  }

  /** Populating an empty field yields exactly one wave. */
  lemma PopulateEmpty(l: Level, width: int, height: int, nextId: nat, now: int, scaleOf: Scaler)
    ensures PopulateEnemies(l, width, height, map[], nextId, now, scaleOf).enemies
         == Spawned(l, width, height, nextId, now, scaleOf)
  {
    EmptyUnion(Spawned(l, width, height, nextId, now, scaleOf));
  }

  lemma EmptyUnion(m: map<nat, Enemy>)
    ensures map[] + m == m
  {
  }

  lemma DisjointUnionSize(a: map<nat, Enemy>, b: map<nat, Enemy>)
    ensures a.Keys !! b.Keys ==> |a + b| == |a| + |b|
  {
    if a.Keys !! b.Keys {
      assert (a + b).Keys == a.Keys + b.Keys;
    }
  }

  /** The boss stage adds exactly one enemy, a boss with 1000 hitpoints. */
  lemma BossStage(l: Level, width: int, height: int, nextId: nat, now: int, scaleOf: Scaler)
    requires Complete(l)
    ensures var m := Spawned(l, width, height, nextId, now, scaleOf);
      m.Keys == {nextId} && m[nextId].boss && m[nextId].hitpoints == BossHitpoints
  {
    var m := Spawned(l, width, height, nextId, now, scaleOf);
    assert nextId in IdRange(nextId, 1);
  }

  /** A 40-enemy level at stage 0 adds 40 enemies of 50 hitpoints each. */
  lemma FortyAtStageZero(l: Level, width: int, height: int, nextId: nat, now: int, scaleOf: Scaler)
    requires l.numEnemies == 40 && l.stage == 0
    ensures var m := Spawned(l, width, height, nextId, now, scaleOf);
      |m| == 40 && forall k :: k in m ==> !m[k].boss && m[k].hitpoints == HitpointIncrement
  {
  }
}

=== FILE: rects.dfy ===
/** Go's `image.Rectangle`: a half-open box from `Min` (inclusive) to `Max`
    (exclusive), and its `Intersect`, which returns the zero rectangle when
    the overlap is empty. The game compares that result with the zero
    rectangle to decide whether two boxes touch. */
module Rects {

  datatype Point = Point(x: int, y: int)

  datatype Rect = Rect(min: Point, max: Point)

  /** `image.Rectangle{}`. */
  const Zero := Rect(Point(0, 0), Point(0, 0))

  function Min(a: int, b: int): int {
    if a < b then a else b
  }

  function Max(a: int, b: int): int {
    if a < b then b else a
  }

  /** Go's `Rectangle.Empty`. */
  predicate Empty(r: Rect) {
    r.min.x >= r.max.x || r.min.y >= r.max.y
  }

  /** The pixels a rectangle covers, `Min` inclusive and `Max` exclusive. */
  predicate Covers(r: Rect, p: Point) {
    r.min.x <= p.x < r.max.x && r.min.y <= p.y < r.max.y
  }

  /** The closed box `[Min, Max]` that point hit tests use. */
  predicate InClosed(r: Rect, p: Point) {
    r.min.x <= p.x <= r.max.x && r.min.y <= p.y <= r.max.y
  }

  /** Go's `Rectangle.Intersect`: the largest rectangle inside both, or the
      zero rectangle when they share no pixel. */
  function Intersect(r: Rect, s: Rect): (t: Rect)
    ensures forall p :: Covers(t, p) <==> Covers(r, p) && Covers(s, p)
    ensures t == Zero || !Empty(t)
  {
    var t := Rect(Point(Max(r.min.x, s.min.x), Max(r.min.y, s.min.y)),
                  Point(Min(r.max.x, s.max.x), Min(r.max.y, s.max.y)));
    if Empty(t) then Zero else t
  }

  /** The game's overlap test `a.Intersect(b) != image.Rectangle{}`. */
  predicate Overlaps(r: Rect, s: Rect) {
    Intersect(r, s) != Zero
  }

  /** Two boxes overlap exactly when some pixel lies in both, so the test
      does not depend on which box is the receiver. */
  lemma OverlapsIffSharedPixel(r: Rect, s: Rect)
    ensures Overlaps(r, s) <==> exists p :: Covers(r, p) && Covers(s, p)
    ensures Overlaps(r, s) <==> Overlaps(s, r)
  {
    var t := Intersect(r, s);
    if t != Zero {
      assert Covers(t, t.min);
    }
    var u := Intersect(s, r);
    if u != Zero {
      assert Covers(u, u.min);
    }
  }
}

=== FILE: sprites.dfy ===
/** The shared geometric entity (`sprites/sprite.go`): a position, the width
    of one animation frame, the image it draws from, a rotation and two scale
    factors. Rotation and scale are floats in the game; they are `real` here
    and only stored, never used in hit tests. */
module Sprites {
  import opened GoInt
  import opened Rects

  /** The pixel size of an image asset, `Bounds().Dx()` by `Bounds().Dy()`. */
  datatype Image = Image(width: nat, height: nat)

  datatype Sprite = Sprite(x: int, y: int, imageWidth: int, image: Image,
                           radians: real, scaleX: real, scaleY: real)

  /** A sprite at the origin, unrotated and unscaled. */
  function NewSprite(imageWidth: int, image: Image): (s: Sprite)
    ensures s.x == 0 && s.y == 0
    ensures s.radians == 0.0 && s.scaleX == 1.0 && s.scaleY == 1.0
    ensures s.imageWidth == imageWidth && s.image == image
    ensures Bounds(s).min.x == -Bounds(s).max.x && Bounds(s).min.y == -Bounds(s).max.y
  {
    Sprite(0, 0, imageWidth, image, 0.0, 1.0, 1.0)
  }

  /** Sets both scale factors and nothing else. */
  function Scale(s: Sprite, factor: real): (r: Sprite)
    ensures r.scaleX == factor && r.scaleY == factor
    ensures r.(scaleX := s.scaleX, scaleY := s.scaleY) == s
  {
    s.(scaleX := factor, scaleY := factor)
  }

  /** The unscaled box centred on the sprite's position: half a frame width
      and half the image height on each side, halves rounded toward zero. */
  function Bounds(s: Sprite): (r: Rect)
    ensures r.min.x + r.max.x == 2 * s.x && r.min.y + r.max.y == 2 * s.y
    ensures 0 <= s.imageWidth ==> r.max.x - r.min.x <= s.imageWidth <= r.max.x - r.min.x + 1
    ensures r.max.y - r.min.y <= s.image.height <= r.max.y - r.min.y + 1
  {
    var halfWidth := Quot(s.imageWidth, 2);
    var halfHeight := s.image.height / 2;
    Rect(Point(s.x - halfWidth, s.y - halfHeight), Point(s.x + halfWidth, s.y + halfHeight))
  }

  /** Moves the sprite to the middle of a `width` by `height` screen. */
  function Center(s: Sprite, width: int, height: int): (r: Sprite)
    ensures 0 <= width ==> 0 <= width - 2 * r.x <= 1
    ensures 0 <= height ==> 0 <= height - 2 * r.y <= 1
    ensures r == s.(x := r.x, y := r.y)
  {
    s.(x := Quot(width, 2), y := Quot(height, 2))
  }

  /** Centring is idempotent and forgets where the sprite was. */
  lemma CenterForgetsPosition(s: Sprite, t: Sprite, width: int, height: int)
    requires s.(x := t.x, y := t.y) == t
    ensures Center(s, width, height) == Center(t, width, height)
    ensures Center(Center(s, width, height), width, height) == Center(s, width, height)
  {
  }
}
